=== FILE: README.md ===
# cryptoReact dashboard — a Dafny model

cryptoReact is a single-page React dashboard for one cryptocurrency at a time,
with its data taken from the public CoinGecko API. This project models its
core in Dafny and proves properties of that model:

- **The asset-detail hook** `useCryptoData` in `App.js`. Its effect re-runs
  on a coin change or a manual-refresh increment. It sets `loading` and
  clears `error` before the request. It keeps the payload and a time stamp
  on an ok response, and stores `HTTP error! status: N` or the thrown
  message otherwise. `refetch` makes the same transitions but sets no
  time stamp.
- **The `coinData` view**, a flat record of thirteen display fields read
  from the payload through `||`, `|| {}` and `?.usd || 0`.
- **The error gate.** While `error` is truthy, App renders only an alert in
  place of the whole page.
- **The chart section.** Its hook `useChartData` follows the same fetch
  cycle, keyed on the coin and the day count. The model also covers the
  market-chart URL, the `|| []` series fallbacks, the time-range buttons
  and their `isActive` flag, the ApexCharts id built from a chart title,
  and the section's own two metric formatters.
- **The utility formatters**: `formatNumber`, `formatCurrency`,
  `formatPercentage`, `isValidNumber`, `calculatePercentageChange` and
  `clamp`.
- **The option tables**: the time ranges, the ten coins, the API base URL
  and the default coin.

JavaScript values are modelled by one datatype, `JsValues.JsValue`.
`Number` covers finite reals, NaN and the two infinities. Truthiness, `||`,
`v.key` and `v?.key` follow the language: `v.key` throws a TypeError exactly
on `null` and `undefined`, and `v?.key` never throws. Every derived field is
proved equal to a reference reading, `Lookup` along the field's path. Each
fetch hook is a state machine, `Fetch.Apply`, driven by four events: Start,
an ok response, a non-ok status and a thrown error. A run of events is
characterised by its history: the last ok payload, and the error left by
the last event that was not an ok response. The selection logic of App
(`Dashboard`) relates each user action to the requests it issues, as a
multiset of URLs. Locale formatting stays symbolic. A formatter returns a
`Rendering` that names the `Intl`/`toLocaleString`/`toFixed` call it makes,
and a `Locale` record of uninterpreted functions renders it.

Some behaviours of the code, which the model keeps as written:

- **A coin change also refetches the chart.** The chart could be expected
  to refetch only on a range change. But App passes the selected coin to
  ChartSection, and the chart effect depends on it. So
  `Dashboard.CoinChangeRequests` proves that a coin change issues both
  requests.
- **A null payload crashes the view.** If the API body is the JSON value
  `null`, the `coinData` memo throws on `data.market_data`, and the chart
  series reads throw on `chartData.prices`. `Derivation.Derive` and
  `ChartSection.Series` return `TypeError` exactly in that case.
- **An object-valued name crashes the view.** Once loading is over,
  CardSection renders `coinName || 'Select a cryptocurrency'` as a React
  child, and React throws on a plain object there.
- **An empty thrown message shows no error panel.** The gate tests the
  message for truthiness, so an error whose message is `""` does not raise
  the panel.
- **A render that throws is final.** The crashed page offers no action, and
  later responses change nothing (`Dashboard.Crashed`).
- **The fetch-failure test fails the chart first.** React runs the child's
  effect before the parent's, so the one mocked rejection reaches the chart
  request. The detail request then reads `ok` on an undefined response, and
  the resulting TypeError raises the panel (`Dashboard.FetchFailureTest`).
- **The error panel is final.** It replaces the header, and with it the coin
  selector and the refresh button. Responses never clear `error`, and no
  new request can be started from the panel.

## Model

| member | source | states |
|---|---|---|
| JsValues.Get | cryptoReact-master/src/App.js:80 | reading a property throws exactly when the object is null or undefined |
| JsValues.OptGet | cryptoReact-master/src/App.js:85 | optional chaining never throws and yields the own property or undefined |
| JsValues.LookupCons | cryptoReact-master/src/App.js:80-97 | a path reading is the first property read followed by the rest of the path |
| Decimal.DecimalString | cryptoReact-master/src/App.js:27 | the rendering of a status or day count is a non-empty digit string without a leading zero (unless it is 0) |
| Decimal.ParseDecimalString | cryptoReact-master/src/App.js:27 | a decimal rendering reads back to the number it came from |
| Decimal.DecimalStringInjective | cryptoReact-master/src/components/ChartSection.js:38 | distinct numbers render to distinct digit strings |
| Constants.TimeRangesOrdered | cryptoReact-master/src/constants/index.js:19-25 | the range days are 1, 7, 30, 182, 365, strictly increasing, with distinct captions |
| Constants.CryptoOptionsWellFormed | cryptoReact-master/src/constants/index.js:28-39 | ten coin options with distinct ids |
| Constants.DefaultsAreMembers | cryptoReact-master/src/constants/index.js:7 | the default coin is listed and the initial 365-day range is one of the buttons |
| Constants.DuplicatedTablesAgree | cryptoReact-master/src/components/Header.js:4-15 | the header's coin list and the chart's range list equal the shared tables |
| Formatters.IsValidNumber | cryptoReact-master/src/utils/formatters.js:81-83 | true exactly for finite numbers; null, undefined, NaN and the infinities are rejected |
| Formatters.NullPassesCoercingTests | cryptoReact-master/src/utils/formatters.js:82 | null passes the coercing isNaN/isFinite tests, so the explicit null test is what rejects it |
| Formatters.PercentageChange | cryptoReact-master/src/utils/formatters.js:114-119 | over the reals the result is always finite, and 0 when either argument is invalid or the old value is 0 |
| Formatters.PercentageChangeOfSelf | cryptoReact-master/src/utils/formatters.js:114-119 | an unchanged value gives 0 percent |
| Formatters.PercentageChangeApplies | cryptoReact-master/src/utils/formatters.js:118 | applying the computed percentage to the old value gives back the new value |
| Formatters.Clamp | cryptoReact-master/src/utils/formatters.js:128-130 | the result never exceeds the upper bound and lies within the bounds when they are ordered; a value at or above the upper bound gives that bound, and one at or below the lower bound gives the lower bound |
| Formatters.ClampIdentity | cryptoReact-master/src/utils/formatters.js:128-130 | a value within the bounds is returned unchanged |
| Formatters.ClampIdempotent | cryptoReact-master/src/utils/formatters.js:128-130 | clamping twice is clamping once |
| Formatters.ClampCrossedBounds | cryptoReact-master/src/utils/formatters.js:129 | with min above max the result is max, because the outer call is Math.min |
| Formatters.FormatNumber | cryptoReact-master/src/utils/formatters.js:7-13 | "0" exactly for a falsy argument; otherwise the value formatted with the requested digits as both minimum and maximum |
| Formatters.CurrencyDigits | cryptoReact-master/src/utils/formatters.js:26-27 | four fraction digits exactly when the value is below 1, otherwise two |
| Formatters.FormatCurrency | cryptoReact-master/src/utils/formatters.js:21-29 | "$0" exactly for a falsy argument, before the currency code is looked at; otherwise a currency format of the given code with equal minimum and maximum digits |
| Formatters.CurrencyDigitsOfValue | cryptoReact-master/src/utils/formatters.js:26-27 | negative and sub-unit amounts get four digits, the rest two |
| Formatters.FormatPercentage | cryptoReact-master/src/utils/formatters.js:36-40 | "0" exactly for a falsy argument; otherwise two fixed decimals followed by a percent sign |
| Formatters.PercentSignOnlyWhenNonZero | cryptoReact-master/src/utils/formatters.js:36-40 | in every locale the text ends in '%' exactly when the argument is truthy |
| Formatters.ZeroGuards | cryptoReact-master/src/utils/formatters.js:7-40 | the three zero guards render a falsy argument as "0", "$0" and "0" in every locale |
| Derivation.Derive | cryptoReact-master/src/App.js:79-98 | the view is computed exactly when the payload is not null or undefined |
| Derivation.DeriveReadsPaths | cryptoReact-master/src/App.js:80-97 | each of the thirteen fields is the value at its own path in the payload, or its default ('' or 0) when that value is falsy |
| Derivation.FieldReadsPath | cryptoReact-master/src/App.js:84-96 | the same, one field at a time, following the `|| {}` and `?.usd` steps |
| Derivation.PathsDistinct | cryptoReact-master/src/App.js:87-88 | no two fields read the same path; the all-time low reads atl, not ath |
| Derivation.DeriveTotal | cryptoReact-master/src/App.js:84-96 | no derived field is undefined, null or NaN |
| Derivation.DeriveKeepsTypes | cryptoReact-master/src/App.js:84-96 | numeric paths derive to numbers and the name to a string |
| Derivation.DeriveEmptyPayload | cryptoReact-master/src/App.js:11 | the initial payload {} derives to '' and twelve zeros |
| Derivation.DeriveFieldDependsOnlyOnItsPath | cryptoReact-master/src/App.js:84-96 | a field depends only on the value at its path: truthy values are copied, falsy ones give the default |
| Derivation.FieldsDetermineView | cryptoReact-master/src/App.js:83-97 | two views that agree on every field are equal |
| Derivation.DeriveFromPaths | cryptoReact-master/src/App.js:80-97 | a payload whose path readings match a view derives to that view |
| Derivation.EthereumTopLevel | cryptoReact-master/src/App.test.js:52-67 | the Ethereum payload written in the selector test has exactly the name, market data, sentiment and community objects it lists |
| Derivation.PathsOfEthereumReadings | cryptoReact-master/src/App.js:80-97 | a payload with the Ethereum test's top-level objects reads, at every field's path, the value the test gives it, or undefined for the four fields it omits |
| Derivation.DeriveEthereumExample | cryptoReact-master/src/App.test.js:52-67 | the whole Ethereum payload written in the selector test, including its 24-hour change, high, low and follower count, derives to exactly those values, with the four omitted fields 0 |
| Fetch.HttpErrorMessage | cryptoReact-master/src/App.js:27 | the message thrown for a non-ok status, shared with ChartSection.js:42, is "HTTP error! status: " followed by the decimal status |
| Fetch.HttpErrorMessageCarriesStatus | cryptoReact-master/src/App.js:26-28 | the HTTP error message is the fixed prefix followed by the status, which can be read back from it |
| Fetch.HttpErrorMessage404 | cryptoReact-master/src/components/ChartSection.js:41-42 | a 404 response gives "HTTP error! status: 404" |
| Fetch.Apply | cryptoReact-master/src/App.js:19-40 | Start sets loading and clears the error; an ok response stores the payload; a failure stores its message and keeps the old data; loading ends after every response |
| Fetch.RunFromHistory | cryptoReact-master/src/App.js:19-40 | after any run the data is the last ok payload, loading holds exactly when the last event was Start, and the error is the one left by the last event that was not an ok response |
| Fetch.ErrorClearedOnlyByStart | cryptoReact-master/src/App.js:20-21 | a set error survives every run of responses that contains no Start |
| Fetch.RecoveryAfterFailure | cryptoReact-master/src/App.js:20-31 | a failure, then a new request that succeeds, ends loaded, with the new data and no error |
| AssetFetch.AssetUrl | cryptoReact-master/src/App.js:24 | the detail URL is the coins prefix followed by the coin id, nothing added |
| AssetFetch.AssetUrlNamesCoin | cryptoReact-master/src/App.js:24 | the detail URL is the coins prefix followed by the coin id, and reads back to that id |
| AssetFetch.EffectStep | cryptoReact-master/src/App.js:16-44 | with an empty coin id nothing changes; otherwise the shared transitions apply, and only an ok response stamps the time |
| AssetFetch.RefetchStep | cryptoReact-master/src/App.js:46-68 | with an empty coin id nothing changes; otherwise the shared transitions apply, and the time stamp is never touched |
| AssetFetch.RefetchIsEffectWithoutStamp | cryptoReact-master/src/App.js:46-68 | refetch is the effect with the time stamp left alone, and differs from it on an ok response with a new clock reading |
| AssetFetch.ShowsErrorPanel | cryptoReact-master/src/App.js:113 | the panel is up exactly when the `error` state, null or a message string, is truthy in JavaScript |
| AssetFetch.ErrorPanelAfterResponse | cryptoReact-master/src/App.js:113-120 | Start lowers the panel; a non-ok status always raises it; a thrown error raises it exactly when its message is non-empty; an ok response leaves it as it was |
| AssetFetch.ErrorPanelSticky | cryptoReact-master/src/App.js:31-36 | once up, the panel stays up through every response except a thrown error with an empty message |
| AssetFetch.RejectedFetchShowsErrorPanel | cryptoReact-master/src/App.js:33-36 | a detail fetch that rejects on mount ends on the error panel exactly when the rejection's message is non-empty |
| ChartSection.ChartStep | cryptoReact-master/src/components/ChartSection.js:29-58 | an empty coin id or a zero range changes nothing; otherwise the shared transitions apply |
| ChartSection.ChartResponses | cryptoReact-master/src/components/ChartSection.js:33-53 | a success replaces the chart data wholesale; a failure keeps the old series and records its message |
| ChartSection.ChartUrl | cryptoReact-master/src/components/ChartSection.js:37-39 | the chart URL starts with the coin's detail URL and ends with the decimal day count, after the fixed market-chart query |
| ChartSection.TrailingDigitsOfAppend | cryptoReact-master/src/components/ChartSection.js:38 | the digit run after a non-digit is exactly the appended digits |
| ChartSection.ChartUrlNamesCoinAndDays | cryptoReact-master/src/components/ChartSection.js:37-39 | the market-chart URL reads back to exactly the selected coin and day count |
| ChartSection.Series | cryptoReact-master/src/components/ChartSection.js:155 | a series read throws exactly when the chart data is null or undefined; otherwise it yields the truthy property itself, or [] in its place |
| ChartSection.InitialSeriesEmpty | cryptoReact-master/src/components/ChartSection.js:21-27 | before any response all three series are empty lists, with no loading and no error |
| ChartSection.IsActive | cryptoReact-master/src/components/ChartSection.js:208 | a button is active exactly when its single-entry table has the selected day count; ActiveCountOfOrderedTable lifts this to the whole table |
| ChartSection.ActiveCountOfOrderedTable | cryptoReact-master/src/components/ChartSection.js:204-208 | with strictly increasing days, exactly one button is active for a listed selection and none otherwise |
| ChartSection.ClickActivatesExactlyOne | cryptoReact-master/src/components/ChartSection.js:174-176 | clicking a button makes that button, and only it, active |
| ChartSection.DefaultRangeActive | cryptoReact-master/src/components/ChartSection.js:146 | the initial 365-day selection lights exactly one button |
| ChartSection.Lower | cryptoReact-master/src/components/ChartSection.js:66 | lower-casing keeps the length and maps each character on its own |
| ChartSection.CollapseWhitespace | cryptoReact-master/src/components/ChartSection.js:66 | replacing whitespace runs with dashes leaves no whitespace |
| ChartSection.CollapseWithoutWhitespace | cryptoReact-master/src/components/ChartSection.js:66 | a string without whitespace is unchanged by the replacement |
| ChartSection.CollapseIdempotent | cryptoReact-master/src/components/ChartSection.js:66 | replacing twice is replacing once |
| ChartSection.ChartId | cryptoReact-master/src/components/ChartSection.js:66 | every chart id starts with "chart-" and has no whitespace or capital letter after it |
| ChartSection.SlugKeepsLowerCase | cryptoReact-master/src/components/ChartSection.js:66 | the whitespace replacement introduces no capital letters |
| ChartSection.DropRun | cryptoReact-master/src/components/ChartSection.js:66 | dropping leading whitespace removes exactly a whitespace run and stops at the first non-whitespace character |
| ChartSection.DropAppend | cryptoReact-master/src/components/ChartSection.js:66 | dropping leading whitespace from a string that ends in a non-whitespace character is unaffected by what follows |
| ChartSection.CollapseRun | cryptoReact-master/src/components/ChartSection.js:66 | a whitespace run of any length between two parts becomes exactly one dash, and each part is replaced on its own |
| ChartSection.JoinEndsSolid | cryptoReact-master/src/components/ChartSection.js:66 | words joined by a separator end in a non-whitespace character |
| ChartSection.LowerJoinWords | cryptoReact-master/src/components/ChartSection.js:66 | lower-casing a space-joined title lower-cases each word and keeps the spaces |
| ChartSection.CollapseJoinWords | cryptoReact-master/src/components/ChartSection.js:66 | in a space-joined title of words each space becomes one dash and the words are kept |
| ChartSection.ChartIdOfWords | cryptoReact-master/src/components/ChartSection.js:66 | the id of a title made of words joined by single spaces is "chart-" followed by the lower-cased words joined by dashes |
| ChartSection.ChartIdFromJoinedWords | cryptoReact-master/src/components/ChartSection.js:66 | a slug that equals the lower-cased words joined by dashes gives the id "chart-" + slug |
| ChartSection.SectionTitles | cryptoReact-master/src/components/ChartSection.js:152-166 | the three chart titles are the words "Market Price (USD)", "Market Cap (USD)" and "Total Volume" joined by single spaces |
| ChartSection.PriceChartId | cryptoReact-master/src/components/ChartSection.js:152 | the price chart's id is "chart-market-price-(usd)" |
| ChartSection.MarketCapChartId | cryptoReact-master/src/components/ChartSection.js:159 | the market-cap chart's id is "chart-market-cap-(usd)" |
| ChartSection.VolumeChartId | cryptoReact-master/src/components/ChartSection.js:166 | the volume chart's id is "chart-total-volume" |
| ChartSection.MetricCurrency | cryptoReact-master/src/components/ChartSection.js:179-187 | "$0" exactly for a falsy value; otherwise whole US dollars |
| ChartSection.MetricNumber | cryptoReact-master/src/components/ChartSection.js:189-192 | "0" exactly for a falsy value; otherwise the default decimal format |
| ChartSection.MetricFormattersAgreeWithUtilities | cryptoReact-master/src/components/ChartSection.js:179-192 | the section's own formatters guard falsy values exactly as the utility formatCurrency and formatNumber do and render the same value, but with whole dollars and up to three decimals instead of two |
| Dashboard.RunEffects | cryptoReact-master/src/App.js:42-44 | running the effects leaves the selection as it was |
| Dashboard.Mount | cryptoReact-master/src/App.js:74-76 | the first render requests the default coin's details and its 365-day chart, both hooks are loading, and the page has not crashed |
| Dashboard.Crashed | cryptoReact-master/src/App.js:80 | the page has thrown exactly when the detail data is null or undefined (the memo reads `data.market_data` before the error gate); or the panel is down and the chart data is null or undefined (ChartSection.js:155 reads `chartData.prices`); or the panel is down, loading is over and the payload's `name` is an object or an array holding one (CardSection.js:76 renders it as a child) |
| Dashboard.Enabled | cryptoReact-master/src/components/Header.js:43-57 | an action is offered only on a page that has not crashed and shows no panel (App.js:113); the coin selector and refresh button need the details loaded, the range buttons also the chart (ChartSection.js:194,210); the selector and buttons offer only table entries |
| Dashboard.Dispatch | cryptoReact-master/src/App.js:100-111 | a coin choice sets the coin, a refresh adds one to the counter and keeps the coin and range, a range click sets the days, and nothing else in the selection changes |
| Dashboard.DeliverAsset | cryptoReact-master/src/App.js:26-38 | a detail response changes only the detail hook's state, by the shared transitions when the page is live and the coin is set; the selection and the chart are kept |
| Dashboard.DeliverChart | cryptoReact-master/src/components/ChartSection.js:41-52 | a chart response changes only the chart hook's state, by the shared transitions when the page is live and coin and range are set; the selection and the details are kept |
| Dashboard.SelectionStaysValid | cryptoReact-master/src/components/Header.js:43 | the selected coin and range are always entries of the option tables |
| Dashboard.CoinChangeRequests | cryptoReact-master/src/App.js:142-143 | choosing another coin requests that coin's details and its chart for the current range |
| Dashboard.RangeChangeRequests | cryptoReact-master/src/components/ChartSection.js:58 | choosing another range requests only the chart, with the new day count, and leaves the details alone |
| Dashboard.RefreshRequests | cryptoReact-master/src/App.js:107-111 | a refresh requests only the details again and leaves the chart alone |
| Dashboard.UnchangedSelectionIsQuiet | cryptoReact-master/src/App.js:44 | re-selecting the current coin or range issues no request and changes nothing |
| Dashboard.AssetRequestIffDependencyChanged | cryptoReact-master/src/App.js:44 | a detail request goes out exactly when the coin or the counter changed |
| Dashboard.AssetUrlIsNotChartUrl | cryptoReact-master/src/components/ChartSection.js:37-39 | a detail URL never equals a chart URL of the same coin |
| Dashboard.ErrorPanelIsFinal | cryptoReact-master/src/App.js:113-120 | while the error panel is up no action is offered, and no response except an empty thrown message lowers it |
| Dashboard.CrashIsFinal | cryptoReact-master/src/App.js:80 | once a render has thrown, no action is offered and no response changes the page |
| Dashboard.NullDetailPayloadCrashes | cryptoReact-master/src/App.js:80 | a detail response whose body is null crashes the page |
| Dashboard.ObjectNameCrashes | cryptoReact-master/src/components/CardSection.js:71-77 | a detail response whose `name` is an object crashes the page and leaves no action offered |
| Dashboard.StringNameRenders | cryptoReact-master/src/components/CardSection.js:71-77 | the same response with a string `name` leaves the page live, with the refresh button offered |
| Dashboard.NullChartPayloadCrashes | cryptoReact-master/src/components/ChartSection.js:155 | a chart response whose body is null crashes the page |
| Dashboard.FetchFailureTest | cryptoReact-master/src/App.test.js:42-50 | the single mocked rejection reaches the chart request, whose error is kept but raises no panel; the detail request then fails with a TypeError, and the panel shows exactly when that message is non-empty |

## Left out

- The HTTP request itself, `response.json()` and the clock are left out. Responses arrive as events, and `new Date()` is a parameter `now`.
- Overlapping requests are left out. The model applies responses one at a time, in arrival order. A late response for a previously selected coin or range can overwrite newer data, because the hooks never cancel a request. That race is not modelled.
- React's rendering, memoisation, JSX markup, `console` logging and the ApexCharts options other than the chart id are left out. They compute no state.
- CardSection and Header's `formatLastUpdated` are left out. They are presentation, outside the modelled core; only CardSection's rendering of the coin name is kept, because it can crash the page.
- Dashboard.Crashed: covers the throws in App's memo, ChartSection's series reads and CardSection's coin name. An exception inside ApexCharts on malformed series data is not modelled, because the library is outside the model.
- The text that `Intl.NumberFormat`, `toLocaleString` and `toFixed` produce is left out. It is locale data and floating-point rounding, so it stays uninterpreted in `Formatters.Locale`.
- `formatLargeNumber`, `debounce`, `safeJsonParse` and `generateId` are left out. App and the chart section never call them, and they rely on floating-point logarithms, timers, JSON parsing and randomness.
- The unused constants are left out: the refresh intervals, the colours, the breakpoints and the error-message table.
- Numbers are real numbers, so IEEE-754 rounding and overflow are not modelled. `Formatters.PercentageChangeApplies` holds exactly only over the reals.
- Formatters.PercentageChange: is finite for every pair of finite arguments, whereas in JavaScript a quotient that overflows, such as the change from 1e-300 to 1e300, is Infinity.
- Formatters.FormatNumber: returns a rendering for every digit count, whereas `toLocaleString` throws a RangeError for a truthy number with more than 100 fraction digits. Every caller uses the default of 2.
- Formatters.FormatCurrency: returns a rendering for every currency string, whereas `new Intl.NumberFormat` throws a RangeError for a truthy value with a code that is not three letters. Every caller uses the default "USD".
- Formatters.NumericArg: the formatters accept numbers, null and undefined only. JavaScript would also coerce strings, booleans and objects through `Number()`.
- Formatters.Clamp: takes real numbers, so NaN arguments, which `Math.max`/`Math.min` propagate, are not modelled.
- JsValues.Prop: gives only an object's own properties. Built-in properties of strings and arrays, such as `length`, and inherited ones read as undefined.
- ChartSection.Lower: lower-cases ASCII letters only. `toLowerCase` also maps other Unicode capitals, but every chart title in the section is ASCII.
- AssetFetch.EffectStep: a rejection with a non-Error value, whose `message` is undefined, is not modelled. Thrown errors carry a string message.
- ChartSection.ChartStep: the same restriction on thrown values applies to the chart fetch.
- `refetch` is returned by the hook but never called by App. It is modelled as `AssetFetch.RefetchStep` and is not wired into `Dashboard`.
- The chart's `error` state is kept but never shown by ChartSection. It does not gate the page.

=== FILE: asset_fetch.dfy ===
/**
 * The asset-detail hook (`useCryptoData`): its effect, which also stamps
 * the completion time on success, its `refetch` callback, which does not,
 * the request URL, and the error gate App puts in front of the page.
 */
module AssetFetch {
  import opened JsValues
  import opened Fetch
  import Constants

  /** The hook's four state variables; `lastUpdated` is a clock reading. */
  datatype AssetState = AssetState(fetch: FetchState, lastUpdated: Option<int>)

  /** `data = {}`, not loading, no error, never updated. */
  const InitialAsset: AssetState := AssetState(FetchState(EmptyObject, false, None), None)

  /** The detail request: the coins prefix followed by the coin id. */
  function AssetUrl(coinId: string): (url: string)
    ensures |url| == |Constants.CoinsUrl| + |coinId|
    ensures url[..|Constants.CoinsUrl|] == Constants.CoinsUrl && url[|Constants.CoinsUrl|..] == coinId
  {
    Constants.CoinsUrl + coinId
  }

  /** The coin a detail URL asks for, if it has the detail-URL prefix. */
  function CoinOfAssetUrl(url: string): Option<string> {
    var prefix := Constants.CoinsUrl;
    if |prefix| <= |url| && url[..|prefix|] == prefix then Some(url[|prefix|..]) else None
  }

  /** The request names exactly the selected coin. */
  lemma AssetUrlNamesCoin(coinId: string)
    ensures CoinOfAssetUrl(AssetUrl(coinId)) == Some(coinId)
  {
    assert AssetUrl(coinId)[..|Constants.CoinsUrl|] == Constants.CoinsUrl;
    assert AssetUrl(coinId)[|Constants.CoinsUrl|..] == coinId;
  }

  /**
   * One event of the effect's fetch cycle at clock reading `now`. With an
   * empty coin id the effect returns before doing anything.
   */
  function EffectStep(coinId: string, s: AssetState, e: FetchEvent, now: int): (t: AssetState)
    ensures coinId == "" ==> t == s
    ensures coinId != "" ==> t.fetch == Apply(s.fetch, e)
    ensures coinId != "" && e.RespondOk? ==> t.lastUpdated == Some(now)
    ensures !(coinId != "" && e.RespondOk?) ==> t.lastUpdated == s.lastUpdated
  {
    if coinId == "" then s
    else
      var fetch := Apply(s.fetch, e);
      if e.RespondOk? then AssetState(fetch, Some(now)) else AssetState(fetch, s.lastUpdated)
  }

  /** One event of a `refetch` cycle: the same transitions, without the time stamp. */
  function RefetchStep(coinId: string, s: AssetState, e: FetchEvent): (t: AssetState)
    ensures coinId == "" ==> t == s
    ensures coinId != "" ==> t.fetch == Apply(s.fetch, e)
    ensures t.lastUpdated == s.lastUpdated
  {
    if coinId == "" then s else AssetState(Apply(s.fetch, e), s.lastUpdated)
  }

  /** Refetch differs from the effect only in leaving the time stamp alone. */
  lemma RefetchIsEffectWithoutStamp(coinId: string, s: AssetState, e: FetchEvent, now: int)
    ensures RefetchStep(coinId, s, e) == EffectStep(coinId, s, e, now).(lastUpdated := s.lastUpdated)
    ensures e.RespondOk? && coinId != "" && s.lastUpdated != Some(now) ==>
              RefetchStep(coinId, s, e) != EffectStep(coinId, s, e, now)
  {
  }

  /** The `error` state as a JavaScript value: `null`, or the message string. */
  function ErrorValue(error: Option<string>): JsValue {
    match error
    case None => Null
    case Some(m) => Str(m)
  }

  /** App renders only the error panel while `error` is truthy: a non-empty message. */
  function ShowsErrorPanel(s: AssetState): (b: bool)
    ensures b <==> Truthy(ErrorValue(s.fetch.error))
  {
    s.fetch.error.Some? && s.fetch.error.value != ""
  }

  /**
   * A non-ok status always raises the panel with the status in it; a
   * thrown error raises it exactly when its message is non-empty; a
   * new request lowers it.
   */
  lemma ErrorPanelAfterResponse(coinId: string, s: AssetState, e: FetchEvent, now: int)
    requires coinId != ""
    ensures e.Start? ==> !ShowsErrorPanel(EffectStep(coinId, s, e, now))
    ensures e.RespondNotOk? ==> ShowsErrorPanel(EffectStep(coinId, s, e, now))
    ensures e.Thrown? ==> (ShowsErrorPanel(EffectStep(coinId, s, e, now)) <==> e.message != "")
    ensures e.RespondOk? ==> (ShowsErrorPanel(EffectStep(coinId, s, e, now)) <==> ShowsErrorPanel(s))
  {
    if e.RespondNotOk? {
      HttpErrorMessageCarriesStatus(e.status);
    }
  }

  /**
   * Responses, even successful ones, leave the panel up; only Start, or a
   * thrown error whose message is empty, lowers it.
   */
  lemma ErrorPanelSticky(coinId: string, s: AssetState, e: FetchEvent, now: int)
    requires ShowsErrorPanel(s) && !e.Start? && e != Thrown("")
    ensures ShowsErrorPanel(EffectStep(coinId, s, e, now))
    ensures ShowsErrorPanel(RefetchStep(coinId, s, e))
  {
    if e.RespondNotOk? {
      HttpErrorMessageCarriesStatus(e.status);
    }
  }

  /** A detail fetch that rejects on mount ends on the error panel exactly when its message is non-empty. */
  lemma RejectedFetchShowsErrorPanel(now: int, message: string)
    ensures var s := EffectStep(Constants.DefaultCoin, InitialAsset, Start, now);
            ShowsErrorPanel(EffectStep(Constants.DefaultCoin, s, Thrown(message), now)) <==> message != ""
  {
  }
}

=== FILE: chart_section.dfy ===
/**
 * The chart section: its data hook (`useChartData`) and request URL, the
 * `|| []` fallback for each series, the time-range buttons, the chart id
 * derived from a title, and the section's own metric formatters.
 */
module ChartSection {
  import opened JsValues
  import opened Decimal
  import opened Fetch
  import opened Constants
  import Formatters

  /** `{ prices: [], market_caps: [], total_volumes: [] }`. */
  const InitialChartData: JsValue :=
    Obj(map["prices" := Arr([]), "market_caps" := Arr([]), "total_volumes" := Arr([])])

  const InitialChart: FetchState := FetchState(InitialChartData, false, None)

  /**
   * One event of the chart fetch cycle for the selected coin and range;
   * an empty coin id or a zero range stops the effect before it starts.
   */
  function ChartStep(coinId: string, timeRange: nat, s: FetchState, e: FetchEvent): (t: FetchState)
    ensures coinId == "" || timeRange == 0 ==> t == s
    ensures coinId != "" && timeRange != 0 ==> t == Apply(s, e)
  {
    if coinId == "" || timeRange == 0 then s else Apply(s, e)
  }

  /** A success replaces the chart data wholesale; a failure keeps the old series. */
  lemma ChartResponses(coinId: string, timeRange: nat, s: FetchState, e: FetchEvent)
    requires coinId != "" && timeRange != 0
    ensures e.Start? ==> ChartStep(coinId, timeRange, s, e) == s.(loading := true, error := None)
    ensures e.RespondOk? ==> ChartStep(coinId, timeRange, s, e).data == e.payload
    ensures e.RespondNotOk? ==> ChartStep(coinId, timeRange, s, e) == s.(loading := false, error := Some(HttpErrorMessage(e.status)))
    ensures e.Thrown? ==> ChartStep(coinId, timeRange, s, e) == s.(loading := false, error := Some(e.message))
  {
  }

  const MarketChartQuery: string := "/market_chart?vs_currency=usd&days="

  /** The market-chart request: the coin's detail URL, then the query with the day count last. */
  function ChartUrl(coinId: string, timeRange: nat): (url: string)
    ensures |url| == |CoinsUrl| + |coinId| + |MarketChartQuery| + |DecimalString(timeRange)|
    ensures url[..|CoinsUrl + coinId|] == CoinsUrl + coinId
    ensures url[|url| - |DecimalString(timeRange)|..] == DecimalString(timeRange)
  {
    CoinsUrl + coinId + MarketChartQuery + DecimalString(timeRange)
  }

  datatype ChartQuery = ChartQuery(coinId: string, days: nat)

  /** Length of the run of decimal digits at the end of `s`. */
  function TrailingDigits(s: string): (k: nat)
    ensures k <= |s|
    decreases |s|
  {
    if s == [] || !IsDigit(s[|s| - 1]) then 0 else 1 + TrailingDigits(s[..|s| - 1])
  }

  /** The digit run after a non-digit is exactly the appended digits. */
  lemma {:induction false} TrailingDigitsOfAppend(h: string, d: string)
    requires h != [] && !IsDigit(h[|h| - 1])
    requires AllDigits(d)
    ensures TrailingDigits(h + d) == |d|
    decreases |d|
  {
    if d == [] {
      assert h + d == h;
    } else {
      var s := h + d;
      assert s[..|s| - 1] == h + d[..|d| - 1];
      assert s[|s| - 1] == d[|d| - 1];
      TrailingDigitsOfAppend(h, d[..|d| - 1]);
    }
  }

  /**
   * Reads a chart URL back: the coins prefix, the coin id, the fixed
   * query, then the day count as the trailing digits.
   */
  function ParseChartUrl(url: string): Option<ChartQuery> {
    if !(|CoinsUrl| <= |url| && url[..|CoinsUrl|] == CoinsUrl) then None
    else
      var rest := url[|CoinsUrl|..];
      var k := TrailingDigits(rest);
      var head := rest[..|rest| - k];
      var digits := rest[|rest| - k..];
      if k == 0 || |head| < |MarketChartQuery| || head[|head| - |MarketChartQuery|..] != MarketChartQuery
         || !AllDigits(digits)
      then None
      else Some(ChartQuery(head[..|head| - |MarketChartQuery|], ParseDecimal(digits)))
  }

  /** The request names exactly the selected coin and the selected number of days. */
  lemma ChartUrlNamesCoinAndDays(coinId: string, timeRange: nat)
    ensures ParseChartUrl(ChartUrl(coinId, timeRange)) == Some(ChartQuery(coinId, timeRange))
  {
    var url := ChartUrl(coinId, timeRange);
    var d := DecimalString(timeRange);
    var h := coinId + MarketChartQuery;
    assert url == CoinsUrl + (h + d);
    assert url[..|CoinsUrl|] == CoinsUrl;
    var rest := url[|CoinsUrl|..];
    assert rest == h + d;
    assert h[|h| - 1] == '=';
    TrailingDigitsOfAppend(h, d);
    assert rest[..|rest| - |d|] == h;
    assert rest[|rest| - |d|..] == d;
    assert h[|h| - |MarketChartQuery|..] == MarketChartQuery;
    assert h[..|h| - |MarketChartQuery|] == coinId;
    ParseDecimalString(timeRange);
  }

  /** `chartData.key || []`: throws only when the chart data itself is null. */
  function Series(chartData: JsValue, key: string): (r: Completion<JsValue>)
    ensures r.TypeError? <==> Nullish(chartData)
    ensures r.Normal? ==> Truthy(r.value)
    ensures r.Normal? && Truthy(Prop(chartData, key)) ==> r.value == Prop(chartData, key)
    ensures r.Normal? && !Truthy(Prop(chartData, key)) ==> r.value == Arr([])
  {
    var v :- Get(chartData, key);
    Normal(Or(v, Arr([])))
  }

  /** Before any response every series is an empty list. */
  lemma InitialSeriesEmpty()
    ensures Series(InitialChart.data, "prices") == Normal(Arr([]))
    ensures Series(InitialChart.data, "market_caps") == Normal(Arr([]))
    ensures Series(InitialChart.data, "total_volumes") == Normal(Arr([]))
    ensures !InitialChart.loading && InitialChart.error == None
  {
  }

  /** A time-range button is active when its days equal the selection. */
  function IsActive(selected: nat, range: TimeRange): (b: bool)
    ensures b <==> HasDays([range], selected)
  {
    assert [range][0] == range;
    selected == range.days
  }

  /** How many buttons of a table are active. */
  function ActiveCount(selected: nat, ranges: seq<TimeRange>): nat
    decreases |ranges|
  {
    if ranges == [] then 0
    else (if IsActive(selected, ranges[0]) then 1 else 0) + ActiveCount(selected, ranges[1..])
  }

  /** With strictly increasing days, one button is active for a listed selection and none otherwise. */
  lemma {:induction false} ActiveCountOfOrderedTable(selected: nat, ranges: seq<TimeRange>)
    requires DaysStrictlyIncreasing(ranges)
    ensures ActiveCount(selected, ranges) == if HasDays(ranges, selected) then 1 else 0
    decreases |ranges|
  {
    if ranges != [] {
      var tail := ranges[1..];
      ActiveCountOfOrderedTable(selected, tail);
      if HasDays(ranges, selected) {
        var i :| 0 <= i < |ranges| && ranges[i].days == selected;
        if i == 0 {
          assert !HasDays(tail, selected) by {
            forall j | 0 <= j < |tail| ensures tail[j].days != selected {
              assert tail[j] == ranges[j + 1];
            }
          }
        } else {
          assert tail[i - 1].days == selected;
        }
      } else {
        assert !IsActive(selected, ranges[0]);
        assert !HasDays(tail, selected) by {
          forall j | 0 <= j < |tail| ensures tail[j].days != selected {
            assert tail[j] == ranges[j + 1];
          }
        }
      }
    }
  }

  /** Clicking a button selects its days, and then exactly that button is active. */
  lemma ClickActivatesExactlyOne(i: nat)
    requires i < |ChartTimeRanges|
    ensures ActiveCount(ChartTimeRanges[i].days, ChartTimeRanges) == 1
    ensures IsActive(ChartTimeRanges[i].days, ChartTimeRanges[i])
  {
    TimeRangesOrdered();
    DuplicatedTablesAgree();
    ActiveCountOfOrderedTable(ChartTimeRanges[i].days, ChartTimeRanges);
  }

  /** The initial selection, 365 days, is one of the buttons, so exactly one is active. */
  lemma DefaultRangeActive()
    ensures ActiveCount(DefaultTimeRange, ChartTimeRanges) == 1
  {
    TimeRangesOrdered();
    DuplicatedTablesAgree();
    assert ChartTimeRanges[4].days == DefaultTimeRange;
    ActiveCountOfOrderedTable(DefaultTimeRange, ChartTimeRanges);
  }

  /** `\s` of a JavaScript regular expression: WhiteSpace and LineTerminator code points. */
  predicate IsJsWhitespace(c: char) {
    var n := c as int;
    n == 0x09 || n == 0x0A || n == 0x0B || n == 0x0C || n == 0x0D || n == 0x20 || n == 0xA0
    || n == 0x1680 || (0x2000 <= n <= 0x200A) || n == 0x2028 || n == 0x2029 || n == 0x202F
    || n == 0x205F || n == 0x3000 || n == 0xFEFF
  }

  predicate NoWhitespace(s: string) {
    forall i :: 0 <= i < |s| ==> !IsJsWhitespace(s[i])
  }

  predicate IsUpperAscii(c: char) {
    'A' <= c <= 'Z'
  }

  function LowerChar(c: char): char {
    if IsUpperAscii(c) then ((c as int) + 32) as char else c
  }

  /** `toLowerCase` on ASCII letters; every other character is kept. */
  function Lower(s: string): (r: string)
    ensures |r| == |s|
    ensures forall i :: 0 <= i < |s| ==> r[i] == LowerChar(s[i])
    decreases |s|
  {
    if s == [] then [] else [LowerChar(s[0])] + Lower(s[1..])
  }

  /** Drops the whitespace at the front of `s`. */
  function DropWhitespace(s: string): (r: string)
    ensures |r| <= |s|
    ensures s != [] && IsJsWhitespace(s[0]) ==> |r| < |s|
    decreases |s|
  {
    if s != [] && IsJsWhitespace(s[0]) then DropWhitespace(s[1..]) else s
  }

  /** `replace(/\s+/g, '-')`: each maximal whitespace run becomes one dash. */
  function CollapseWhitespace(s: string): (r: string)
    ensures NoWhitespace(r)
    decreases |s|
  {
    if s == [] then []
    else if IsJsWhitespace(s[0]) then "-" + CollapseWhitespace(DropWhitespace(s))
    else [s[0]] + CollapseWhitespace(s[1..])
  }

  /** A string without whitespace is left as it is. */
  lemma {:induction false} CollapseWithoutWhitespace(s: string)
    requires NoWhitespace(s)
    ensures CollapseWhitespace(s) == s
    decreases |s|
  {
    if s != [] {
      assert !IsJsWhitespace(s[0]);
      assert NoWhitespace(s[1..]) by {
        forall i | 0 <= i < |s[1..]| ensures !IsJsWhitespace(s[1..][i]) {
          assert s[1..][i] == s[i + 1];
        }
      }
      CollapseWithoutWhitespace(s[1..]);
      assert [s[0]] + s[1..] == s;
    }
  }

  /** Replacing again changes nothing. */
  lemma CollapseIdempotent(s: string)
    ensures CollapseWhitespace(CollapseWhitespace(s)) == CollapseWhitespace(s)
  {
    CollapseWithoutWhitespace(CollapseWhitespace(s));
  }

  const ChartIdPrefix: string := "chart-"

  /** The ApexCharts id of a chart with the given title. */
  function ChartId(title: string): (id: string)
    ensures |id| >= |ChartIdPrefix| && id[..|ChartIdPrefix|] == ChartIdPrefix
    ensures NoWhitespace(id[|ChartIdPrefix|..])
    ensures forall i :: |ChartIdPrefix| <= i < |id| ==> !IsUpperAscii(id[i])
  {
    var slug := CollapseWhitespace(Lower(title));
    SlugKeepsLowerCase(Lower(title));
    assert (ChartIdPrefix + slug)[|ChartIdPrefix|..] == slug;
    ChartIdPrefix + slug
  }

  predicate NoUpperAscii(s: string) {
    forall i :: 0 <= i < |s| ==> !IsUpperAscii(s[i])
  }

  /** Collapsing whitespace introduces no capital letters. */
  lemma {:induction false} SlugKeepsLowerCase(s: string)
    requires NoUpperAscii(s)
    ensures NoUpperAscii(CollapseWhitespace(s))
    decreases |s|
  {
    if s != [] {
      if IsJsWhitespace(s[0]) {
        DropIsSuffix(s);
        var t := DropWhitespace(s);
        assert NoUpperAscii(t) by {
          forall i | 0 <= i < |t| ensures !IsUpperAscii(t[i]) {
            assert t[i] == s[|s| - |t| + i];
          }
        }
        SlugKeepsLowerCase(t);
      } else {
        assert NoUpperAscii(s[1..]) by {
          forall i | 0 <= i < |s[1..]| ensures !IsUpperAscii(s[1..][i]) {
            assert s[1..][i] == s[i + 1];
          }
        }
        SlugKeepsLowerCase(s[1..]);
      }
    }
  }

  /** What is left after dropping leading whitespace is a suffix of the input. */
  lemma {:induction false} DropIsSuffix(s: string)
    ensures DropWhitespace(s) == s[|s| - |DropWhitespace(s)|..]
    decreases |s|
  {
    if s != [] && IsJsWhitespace(s[0]) {
      DropIsSuffix(s[1..]);
      assert s[1..][|s[1..]| - |DropWhitespace(s[1..])|..] == s[|s| - |DropWhitespace(s)|..];
    }
  }

  /** Lower-casing works character by character, so it distributes over concatenation. */
  lemma LowerAppend(a: string, b: string)
    ensures Lower(a + b) == Lower(a) + Lower(b)
  {
  }

  /** Dropping leading whitespace from a string that has none leaves it as it is. */
  lemma DropNothing(b: string)
    requires NoWhitespace(b)
    ensures DropWhitespace(b) == b
  {
    if b != [] {
      assert !IsJsWhitespace(b[0]);
    }
  }

  /** Lower-casing neither adds nor removes whitespace. */
  lemma LowerKeepsNoWhitespace(a: string)
    requires NoWhitespace(a)
    ensures NoWhitespace(Lower(a))
  {
    forall i | 0 <= i < |a| ensures !IsJsWhitespace(Lower(a)[i]) {
      assert !IsJsWhitespace(a[i]);
    }
  }

  predicate AllWhitespace(w: string) {
    forall i :: 0 <= i < |w| ==> IsJsWhitespace(w[i])
  }

  /** `a` is non-empty and its last character is not whitespace. */
  predicate EndsSolid(a: string) {
    a != [] && !IsJsWhitespace(a[|a| - 1])
  }

  /** `b` is empty or its first character is not whitespace. */
  predicate StartsSolid(b: string) {
    b == [] || !IsJsWhitespace(b[0])
  }

  /** A whitespace run in front of `b` is dropped whole, and nothing of `b` is. */
  lemma {:induction false} DropRun(w: string, b: string)
    requires AllWhitespace(w) && StartsSolid(b)
    ensures DropWhitespace(w + b) == b
    decreases |w|
  {
    if w == [] {
      assert w + b == b;
    } else {
      assert (w + b)[0] == w[0];
      assert (w + b)[1..] == w[1..] + b;
      assert AllWhitespace(w[1..]) by {
        forall i | 0 <= i < |w[1..]| ensures IsJsWhitespace(w[1..][i]) {
          assert w[1..][i] == w[i + 1];
        }
      }
      DropRun(w[1..], b);
    }
  }

  /** Leading whitespace of `a + t`, where `a` ends in a non-space, lies within `a`. */
  lemma {:induction false} DropAppend(a: string, t: string)
    requires EndsSolid(a)
    ensures EndsSolid(DropWhitespace(a))
    ensures DropWhitespace(a + t) == DropWhitespace(a) + t
    decreases |a|
  {
    assert (a + t)[0] == a[0];
    if IsJsWhitespace(a[0]) {
      assert |a| >= 2;
      assert (a + t)[1..] == a[1..] + t;
      assert a[1..][|a[1..]| - 1] == a[|a| - 1];
      DropAppend(a[1..], t);
    }
  }

  /** A whitespace run at the front becomes one dash. */
  lemma CollapseLeadingRun(w: string, b: string)
    requires w != [] && AllWhitespace(w) && StartsSolid(b)
    ensures CollapseWhitespace(w + b) == "-" + CollapseWhitespace(b)
  {
    assert (w + b)[0] == w[0];
    DropRun(w, b);
  }

  /** A leading whitespace run of `a` is collapsed before anything after `a` is reached. */
  lemma CollapseAfterLeadingSpace(a: string, t: string)
    requires EndsSolid(a) && IsJsWhitespace(a[0])
    ensures CollapseWhitespace(a + t) == "-" + CollapseWhitespace(DropWhitespace(a) + t)
    ensures CollapseWhitespace(a) == "-" + CollapseWhitespace(DropWhitespace(a))
  {
    assert (a + t)[0] == a[0];
    DropAppend(a, t);
  }

  /** A leading non-space character is copied. */
  lemma CollapseAfterLeadingChar(a: string, t: string)
    requires a != [] && !IsJsWhitespace(a[0])
    ensures CollapseWhitespace(a + t) == [a[0]] + CollapseWhitespace(a[1..] + t)
  {
    assert (a + t)[0] == a[0];
    assert (a + t)[1..] == a[1..] + t;
  }

  /**
   * The slug rule: a maximal whitespace run, of any length and any mix of
   * whitespace characters, becomes exactly one dash, and the text on
   * either side is collapsed on its own.
   */
  lemma {:induction false} CollapseRun(a: string, w: string, b: string)
    requires a == [] || EndsSolid(a)
    requires w != [] && AllWhitespace(w)
    requires StartsSolid(b)
    ensures CollapseWhitespace(a + w + b) == CollapseWhitespace(a) + "-" + CollapseWhitespace(b)
    decreases |a|, 1
  {
    if a == [] {
      assert a + w + b == w + b;
      CollapseLeadingRun(w, b);
    } else if IsJsWhitespace(a[0]) {
      CollapseRunAfterSpace(a, w, b);
    } else {
      CollapseRunAfterChar(a, w, b);
    }
  }

  /** One step past a leading whitespace run of `a`, with `w + b` following. */
  lemma CollapseStepOverSpace(a: string, w: string, b: string)
    requires EndsSolid(a) && IsJsWhitespace(a[0])
    ensures EndsSolid(DropWhitespace(a)) && |DropWhitespace(a)| < |a|
    ensures CollapseWhitespace(a + w + b) == "-" + CollapseWhitespace(DropWhitespace(a) + w + b)
    ensures CollapseWhitespace(a) == "-" + CollapseWhitespace(DropWhitespace(a))
  {
    var t := w + b;
    var rest := DropWhitespace(a);
    assert a + w + b == a + t;
    assert rest + t == rest + w + b;
    DropAppend(a, t);
    CollapseAfterLeadingSpace(a, t);
  }

  lemma {:induction false} CollapseRunAfterSpace(a: string, w: string, b: string)
    requires EndsSolid(a) && IsJsWhitespace(a[0])
    requires w != [] && AllWhitespace(w)
    requires StartsSolid(b)
    ensures CollapseWhitespace(a + w + b) == CollapseWhitespace(a) + "-" + CollapseWhitespace(b)
    decreases |a|, 0
  {
    var rest := DropWhitespace(a);
    CollapseStepOverSpace(a, w, b);
    CollapseRun(rest, w, b);
    var x := CollapseWhitespace(rest);
    var y := CollapseWhitespace(b);
    assert "-" + (x + "-" + y) == ("-" + x) + "-" + y;
  }

  lemma {:induction false} CollapseRunAfterChar(a: string, w: string, b: string)
    requires a != [] && !IsJsWhitespace(a[0]) && EndsSolid(a)
    requires w != [] && AllWhitespace(w)
    requires StartsSolid(b)
    ensures CollapseWhitespace(a + w + b) == CollapseWhitespace(a) + "-" + CollapseWhitespace(b)
    decreases |a|, 0
  {
    var t := w + b;
    assert a + w + b == a + t;
    CollapseAfterLeadingChar(a, t);
    assert a[1..] + t == a[1..] + w + b;
    if a[1..] != [] {
      assert a[1..][|a[1..]| - 1] == a[|a| - 1];
    }
    CollapseRun(a[1..], w, b);
    assert CollapseWhitespace(a) == [a[0]] + CollapseWhitespace(a[1..]);
  }

  /** Words joined by one separator character. */
  function JoinWords(words: seq<string>, sep: char): string
    decreases |words|
  {
    if words == [] then []
    else if |words| == 1 then words[0]
    else JoinWords(words[..|words| - 1], sep) + [sep] + words[|words| - 1]
  }

  /** A non-empty run of characters that are not whitespace. */
  predicate IsWord(w: string) {
    w != [] && NoWhitespace(w)
  }

  predicate AllWords(words: seq<string>) {
    forall i :: 0 <= i < |words| ==> IsWord(words[i])
  }

  function LowerWords(words: seq<string>): (r: seq<string>)
    ensures |r| == |words|
    ensures forall i :: 0 <= i < |words| ==> r[i] == Lower(words[i])
  {
    seq(|words|, i requires 0 <= i < |words| => Lower(words[i]))
  }

  /** Joined words end in the last character of the last word. */
  lemma JoinEndsSolid(words: seq<string>, sep: char)
    requires words != [] && AllWords(words)
    ensures EndsSolid(JoinWords(words, sep))
  {
    var last := words[|words| - 1];
    assert IsWord(last);
    if |words| > 1 {
      var j := JoinWords(words, sep);
      assert j[|j| - 1] == last[|last| - 1];
    }
  }

  /** Lower-casing joined words lower-cases each word and keeps the spaces. */
  lemma {:induction false} LowerJoinWords(words: seq<string>)
    ensures Lower(JoinWords(words, ' ')) == JoinWords(LowerWords(words), ' ')
    decreases |words|
  {
    if |words| > 1 {
      var init := words[..|words| - 1];
      LowerJoinWords(init);
      assert LowerWords(words)[..|words| - 1] == LowerWords(init);
      LowerAppend(JoinWords(init, ' ') + [' '], words[|words| - 1]);
      LowerAppend(JoinWords(init, ' '), [' ']);
    }
  }

  /** Words separated by single spaces are joined by dashes instead. */
  lemma {:induction false} CollapseJoinWords(words: seq<string>)
    requires AllWords(words)
    ensures CollapseWhitespace(JoinWords(words, ' ')) == JoinWords(words, '-')
    decreases |words|
  {
    if |words| == 1 {
      CollapseWithoutWhitespace(words[0]);
    } else if |words| > 1 {
      var init := words[..|words| - 1];
      var last := words[|words| - 1];
      assert AllWords(init) by {
        forall i | 0 <= i < |init| ensures IsWord(init[i]) {
          assert init[i] == words[i];
        }
      }
      assert IsWord(last);
      JoinEndsSolid(init, ' ');
      CollapseRun(JoinWords(init, ' '), [' '], last);
      CollapseJoinWords(init);
      CollapseWithoutWhitespace(last);
    }
  }

  /**
   * A title of words separated by single spaces, such as "Market Price
   * (USD)", gets the id "chart-" followed by the lower-cased words joined
   * by dashes.
   */
  lemma ChartIdOfWords(words: seq<string>)
    requires AllWords(words)
    ensures ChartId(JoinWords(words, ' ')) == ChartIdPrefix + JoinWords(LowerWords(words), '-')
  {
    LowerJoinWords(words);
    assert AllWords(LowerWords(words)) by {
      forall i | 0 <= i < |words| ensures IsWord(LowerWords(words)[i]) {
        assert IsWord(words[i]);
        LowerKeepsNoWhitespace(words[i]);
      }
    }
    CollapseJoinWords(LowerWords(words));
  }

  lemma JoinTwo(a: string, b: string, sep: char)
    ensures JoinWords([a, b], sep) == a + [sep] + b
  {
    assert [a, b][..1] == [a];
  }

  lemma JoinThree(a: string, b: string, c: string, sep: char)
    ensures JoinWords([a, b, c], sep) == a + [sep] + b + [sep] + c
  {
    assert [a, b, c][..2] == [a, b];
    JoinTwo(a, b, sep);
  }

  /** The words of the section's three chart titles. */
  const PriceTitleWords: seq<string> := ["Market", "Price", "(USD)"]
  const MarketCapTitleWords: seq<string> := ["Market", "Cap", "(USD)"]
  const VolumeTitleWords: seq<string> := ["Total", "Volume"]

  /** No title word is empty or holds whitespace. */
  lemma TitleWordsAreWords()
    ensures IsWord("Market") && IsWord("Price") && IsWord("(USD)")
    ensures IsWord("Cap") && IsWord("Total") && IsWord("Volume")
  {
  }

  /** The title words lower-cased. */
  lemma PriceWordsLowered()
    ensures LowerWords(PriceTitleWords) == ["market", "price", "(usd)"]
  {
    assert Lower("Market") == "market";
    assert Lower("Price") == "price";
    assert Lower("(USD)") == "(usd)";
  }

  lemma MarketCapWordsLowered()
    ensures LowerWords(MarketCapTitleWords) == ["market", "cap", "(usd)"]
  {
    assert Lower("Market") == "market";
    assert Lower("Cap") == "cap";
    assert Lower("(USD)") == "(usd)";
  }

  lemma VolumeWordsLowered()
    ensures LowerWords(VolumeTitleWords) == ["total", "volume"]
  {
    assert Lower("Total") == "total";
    assert Lower("Volume") == "volume";
  }

  /** Each title is its words separated by single spaces. */
  lemma SectionTitles()
    ensures JoinWords(PriceTitleWords, ' ') == "Market Price (USD)"
    ensures JoinWords(MarketCapTitleWords, ' ') == "Market Cap (USD)"
    ensures JoinWords(VolumeTitleWords, ' ') == "Total Volume"
  {
    JoinThree("Market", "Price", "(USD)", ' ');
    JoinThree("Market", "Cap", "(USD)", ' ');
    JoinTwo("Total", "Volume", ' ');
  }

  /** The id of a title given by its words, once the lower-cased words are joined. */
  lemma ChartIdFromJoinedWords(words: seq<string>, slug: string)
    requires AllWords(words)
    requires JoinWords(LowerWords(words), '-') == slug
    ensures ChartId(JoinWords(words, ' ')) == ChartIdPrefix + slug
  {
    ChartIdOfWords(words);
  }

  /** The words of "Market Price (USD)" are words, and lower-cased and dash-joined they give its slug. */
  lemma PriceSlug()
    ensures AllWords(PriceTitleWords)
    ensures JoinWords(LowerWords(PriceTitleWords), '-') == "market-price-(usd)"
  {
    TitleWordsAreWords();
    PriceWordsLowered();
    JoinThree("market", "price", "(usd)", '-');
  }

  /** The id of the chart titled "Market Price (USD)". */
  lemma PriceChartId()
    ensures ChartId(JoinWords(PriceTitleWords, ' ')) == ChartIdPrefix + "market-price-(usd)"
  {
    PriceSlug();
    ChartIdFromJoinedWords(PriceTitleWords, "market-price-(usd)");
  }

  /** The words of "Market Cap (USD)" are words, and lower-cased and dash-joined they give its slug. */
  lemma MarketCapSlug()
    ensures AllWords(MarketCapTitleWords)
    ensures JoinWords(LowerWords(MarketCapTitleWords), '-') == "market-cap-(usd)"
  {
    TitleWordsAreWords();
    MarketCapWordsLowered();
    JoinThree("market", "cap", "(usd)", '-');
  }

  /** The id of the chart titled "Market Cap (USD)". */
  lemma MarketCapChartId()
    ensures ChartId(JoinWords(MarketCapTitleWords, ' ')) == ChartIdPrefix + "market-cap-(usd)"
  {
    MarketCapSlug();
    ChartIdFromJoinedWords(MarketCapTitleWords, "market-cap-(usd)");
  }

  /** The words of "Total Volume" are words, and lower-cased and dash-joined they give its slug. */
  lemma VolumeSlug()
    ensures AllWords(VolumeTitleWords)
    ensures JoinWords(LowerWords(VolumeTitleWords), '-') == "total-volume"
  {
    TitleWordsAreWords();
    VolumeWordsLowered();
    JoinTwo("total", "volume", '-');
  }

  /** The id of the chart titled "Total Volume". */
  lemma VolumeChartId()
    ensures ChartId(JoinWords(VolumeTitleWords, ' ')) == ChartIdPrefix + "total-volume"
  {
    VolumeSlug();
    ChartIdFromJoinedWords(VolumeTitleWords, "total-volume");
  }

  /** The section's own formatCurrency: "$0" when falsy, else whole US dollars. */
  function MetricCurrency(value: Formatters.NumericArg): (r: Formatters.Rendering)
    ensures r == Formatters.Literal("$0") <==> !Truthy(value)
    ensures Truthy(value) ==> r == Formatters.Localized(
      Formatters.ToNumber(value), Formatters.NumberFormat(Formatters.CurrencyStyle("USD"), 0, 0))
  {
    if !Truthy(value) then Formatters.Literal("$0")
    else Formatters.Localized(
      Formatters.ToNumber(value), Formatters.NumberFormat(Formatters.CurrencyStyle("USD"), 0, 0))
  }

  /** The section's own formatNumber: "0" when falsy, else Intl's default decimal format (0 to 3 digits). */
  function MetricNumber(value: Formatters.NumericArg): (r: Formatters.Rendering)
    ensures r == Formatters.Literal("0") <==> !Truthy(value)
    ensures Truthy(value) ==> r == Formatters.Localized(
      Formatters.ToNumber(value), Formatters.NumberFormat(Formatters.DecimalStyle, 0, 3))
  {
    if !Truthy(value) then Formatters.Literal("0")
    else Formatters.Localized(
      Formatters.ToNumber(value), Formatters.NumberFormat(Formatters.DecimalStyle, 0, 3))
  }

  /**
   * The section's formatters guard exactly as the utility formatters do:
   * the section's `!value` and the utilities' `!value || value === 0`
   * reject the same arguments. They differ only in the digits asked for:
   * whole dollars against two or four digits, and up to three digits
   * against exactly two.
   */
  lemma MetricFormattersAgreeWithUtilities(v: Formatters.NumericArg, locale: Formatters.Locale)
    ensures (MetricCurrency(v) == Formatters.Literal("$0")) <==> (Formatters.FormatCurrency(v) == Formatters.Literal("$0"))
    ensures (MetricNumber(v) == Formatters.Literal("0")) <==> (Formatters.FormatNumber(v) == Formatters.Literal("0"))
    ensures !Truthy(v) ==> Formatters.Render(MetricCurrency(v), locale) == "$0" && Formatters.Render(MetricNumber(v), locale) == "0"
    ensures Truthy(v) ==>
      && MetricCurrency(v).format.maximumFractionDigits == 0 < Formatters.FormatCurrency(v).format.maximumFractionDigits
      && MetricCurrency(v).format.style == Formatters.FormatCurrency(v).format.style
      && MetricCurrency(v).value == Formatters.FormatCurrency(v).value
    ensures Truthy(v) ==>
      && MetricNumber(v).format.minimumFractionDigits == 0 < Formatters.FormatNumber(v).format.minimumFractionDigits
      && MetricNumber(v).format.maximumFractionDigits == 3
      && Formatters.FormatNumber(v).format.maximumFractionDigits == 2
      && MetricNumber(v).value == Formatters.FormatNumber(v).value
  {
  }
}

=== FILE: constants.dfy ===
/**
 * The dashboard's fixed configuration: API base, default coin, the chart's
 * time-range buttons and the selectable coins.
 */
module Constants {

  datatype TimeRange = TimeRange(caption: string, days: nat)

  datatype CryptoOption = CryptoOption(id: string, name: string, symbol: string)

  const ApiBaseUrl: string := "https://api.coingecko.com/api/v3"

  /** The coin endpoints both data hooks build their URLs from. */
  const CoinsUrl: string := ApiBaseUrl + "/coins/"

  const DefaultCoin: string := "bitcoin"

  /** Initial `selectedTimeRange` of the chart section. */
  const DefaultTimeRange: nat := 365

  const TimeRanges: seq<TimeRange> := [
    TimeRange("1D", 1),
    TimeRange("1W", 7),
    TimeRange("1M", 30),
    TimeRange("6M", 182),
    TimeRange("1Y", 365)
  ]

  /** The copy of the time-range table that the chart section declares for itself. */
  const ChartTimeRanges: seq<TimeRange> := [
    TimeRange("1D", 1),
    TimeRange("1W", 7),
    TimeRange("1M", 30),
    TimeRange("6M", 182),
    TimeRange("1Y", 365)
  ]

  const CryptoOptions: seq<CryptoOption> := [
    CryptoOption("bitcoin", "Bitcoin", "BTC"),
    CryptoOption("ethereum", "Ethereum", "ETH"),
    CryptoOption("binancecoin", "Binance Coin", "BNB"),
    CryptoOption("solana", "Solana", "SOL"),
    CryptoOption("cardano", "Cardano", "ADA"),
    CryptoOption("ripple", "Ripple", "XRP"),
    CryptoOption("dogecoin", "Dogecoin", "DOGE"),
    CryptoOption("avalanche-2", "Avalanche", "AVAX"),
    CryptoOption("decentraland", "Decentraland", "MANA"),
    CryptoOption("tether", "Tether", "USDT")
  ]

  /** The copy of the coin table that the header's selector declares for itself. */
  const HeaderCryptoOptions: seq<CryptoOption> := [
    CryptoOption("bitcoin", "Bitcoin", "BTC"),
    CryptoOption("ethereum", "Ethereum", "ETH"),
    CryptoOption("binancecoin", "Binance Coin", "BNB"),
    CryptoOption("solana", "Solana", "SOL"),
    CryptoOption("cardano", "Cardano", "ADA"),
    CryptoOption("ripple", "Ripple", "XRP"),
    CryptoOption("dogecoin", "Dogecoin", "DOGE"),
    CryptoOption("avalanche-2", "Avalanche", "AVAX"),
    CryptoOption("decentraland", "Decentraland", "MANA"),
    CryptoOption("tether", "Tether", "USDT")
  ]

  /** Some entry of a range table has this day count. */
  predicate HasDays(ranges: seq<TimeRange>, days: nat) {
    exists i :: 0 <= i < |ranges| && ranges[i].days == days
  }

  predicate IsRangeDays(days: nat) {
    HasDays(TimeRanges, days)
  }

  predicate IsCoinId(id: string) {
    exists i :: 0 <= i < |CryptoOptions| && CryptoOptions[i].id == id
  }

  predicate DaysStrictlyIncreasing(ranges: seq<TimeRange>) {
    forall i, j :: 0 <= i < j < |ranges| ==> ranges[i].days < ranges[j].days
  }

  predicate CaptionsDistinct(ranges: seq<TimeRange>) {
    forall i, j :: 0 <= i < j < |ranges| ==> ranges[i].caption != ranges[j].caption
  }

  predicate IdsDistinct(options: seq<CryptoOption>) {
    forall i, j :: 0 <= i < j < |options| ==> options[i].id != options[j].id
  }

  /** The days of the time-range table, in table order. */
  function RangeDays(ranges: seq<TimeRange>): (ds: seq<nat>)
    ensures |ds| == |ranges|
    ensures forall i :: 0 <= i < |ranges| ==> ds[i] == ranges[i].days
  {
    seq(|ranges|, i requires 0 <= i < |ranges| => ranges[i].days)
  }

  lemma TimeRangesOrdered()
    ensures RangeDays(TimeRanges) == [1, 7, 30, 182, 365]
    ensures DaysStrictlyIncreasing(TimeRanges)
    ensures CaptionsDistinct(TimeRanges)
  {
  }

  lemma CryptoOptionsWellFormed()
    ensures |CryptoOptions| == 10
    ensures IdsDistinct(CryptoOptions)
  {
  }

  lemma DefaultsAreMembers()
    ensures IsCoinId(DefaultCoin)
    ensures IsRangeDays(DefaultTimeRange)
  {
    assert CryptoOptions[0].id == DefaultCoin;
    assert TimeRanges[4].days == DefaultTimeRange;
  }

  lemma DuplicatedTablesAgree()
    ensures HeaderCryptoOptions == CryptoOptions
    ensures ChartTimeRanges == TimeRanges
  {
  }
}

=== FILE: dashboard.dfy ===
/**
 * The App component around the two hooks: the selected coin, the manual
 * refresh counter and the chart's selected range; which user actions the
 * rendered page offers; and which requests each action issues, since an
 * effect re-runs exactly when one of its dependencies changed.
 */
module Dashboard {
  import opened JsValues
  import opened Fetch
  import opened Constants
  import opened AssetFetch
  import opened ChartSection
  import Derivation

  datatype DashboardState = DashboardState(
    coin: string,
    refreshTrigger: nat,
    timeRange: nat,
    asset: AssetState,
    chart: FetchState)

  datatype UserAction = SelectCoin(id: string) | ManualRefresh | SelectRange(days: nat)

  /** The new state and the URLs requested, as a multiset: the two effects' order is not modelled. */
  datatype Outcome = Outcome(state: DashboardState, requests: multiset<string>)

  /** Effect runs after a dependency change: a Start and a request, unless the guard returns early. */
  function RunEffects(d: DashboardState, assetRerun: bool, chartRerun: bool, now: int): (o: Outcome)
    ensures o.state.coin == d.coin && o.state.refreshTrigger == d.refreshTrigger && o.state.timeRange == d.timeRange
  {
    var assetGo := assetRerun && d.coin != "";
    var chartGo := chartRerun && d.coin != "" && d.timeRange != 0;
    var asset := if assetRerun then EffectStep(d.coin, d.asset, Start, now) else d.asset;
    var chart := if chartRerun then ChartStep(d.coin, d.timeRange, d.chart, Start) else d.chart;
    Outcome(
      d.(asset := asset, chart := chart),
      (if assetGo then multiset{AssetUrl(d.coin)} else multiset{})
        + (if chartGo then multiset{ChartUrl(d.coin, d.timeRange)} else multiset{}))
  }

  /**
   * React's rule for a value rendered as a child: strings, numbers,
   * booleans, null and undefined render, an array renders element by
   * element, and a plain object throws.
   */
  predicate ThrowsAsChild(v: JsValue)
    decreases v
  {
    match v
    case Obj(_) => true
    case Arr(items) => exists i :: 0 <= i < |items| && ThrowsAsChild(items[i])
    case _ => false
  }

  /**
   * Rendering has thrown, and with no error boundary React unmounts the
   * whole tree. App derives `coinData` before its error gate, so a null
   * detail payload always crashes; ChartSection reads its series, and
   * CardSection renders `coinName || 'Select a cryptocurrency'` as a child
   * once loading is over, only while the error panel is down.
   */
  function Crashed(d: DashboardState): (b: bool)
    ensures b <==> || Nullish(d.asset.fetch.data)
                   || (!ShowsErrorPanel(d.asset) && Nullish(d.chart.data))
                   || (&& !ShowsErrorPanel(d.asset) && !d.asset.fetch.loading
                       && ThrowsAsChild(Prop(d.asset.fetch.data, "name")))
  {
    var view := Derivation.Derive(d.asset.fetch.data);
    || view.TypeError?
    || (!ShowsErrorPanel(d.asset) && Series(d.chart.data, "prices").TypeError?)
    || (!ShowsErrorPanel(d.asset) && !d.asset.fetch.loading && ThrowsAsChild(view.value.name))
  }

  /** First render: default coin, counter 0, range 365, and both effects run. */
  function Mount(now: int): (o: Outcome)
    ensures o.requests == multiset{AssetUrl(DefaultCoin), ChartUrl(DefaultCoin, DefaultTimeRange)}
    ensures o.state.asset.fetch.loading && o.state.chart.loading
    ensures !Crashed(o.state)
  {
    RunEffects(DashboardState(DefaultCoin, 0, DefaultTimeRange, InitialAsset, InitialChart), true, true, now)
  }

  /**
   * What the rendered page offers. A crashed page offers nothing, and
   * while the error panel is up nothing else is rendered. The coin
   * selector and refresh button are disabled while the asset loads; the
   * range buttons while either fetch loads.
   */
  function Enabled(d: DashboardState, a: UserAction): (b: bool)
    ensures b ==> !d.asset.fetch.loading && Derivation.Derive(d.asset.fetch.data).Normal?
    ensures b && a.SelectRange? ==> !d.chart.loading && Series(d.chart.data, "prices").Normal?
    ensures b && a.SelectCoin? ==> IsCoinId(a.id)
    ensures b && a.SelectRange? ==> IsRangeDays(a.days)
  {
    && !Crashed(d)
    && !ShowsErrorPanel(d.asset)
    && match a
       case SelectCoin(id) => !d.asset.fetch.loading && IsCoinId(id)
       case ManualRefresh => !d.asset.fetch.loading
       case SelectRange(days) => !(d.asset.fetch.loading || d.chart.loading) && IsRangeDays(days)
  }

  /** A user action updates the selection and re-runs the effects whose dependencies changed. */
  function Dispatch(d: DashboardState, a: UserAction, now: int): (o: Outcome)
    ensures a.ManualRefresh? ==> o.state.refreshTrigger == d.refreshTrigger + 1
    ensures a.ManualRefresh? ==> o.state.coin == d.coin && o.state.timeRange == d.timeRange
    ensures !a.ManualRefresh? ==> o.state.refreshTrigger == d.refreshTrigger
    ensures a.SelectCoin? ==> o.state.coin == a.id && o.state.timeRange == d.timeRange
    ensures a.SelectRange? ==> o.state.timeRange == a.days && o.state.coin == d.coin
  {
    var next := match a
      case SelectCoin(id) => d.(coin := id)
      case ManualRefresh => d.(refreshTrigger := d.refreshTrigger + 1)
      case SelectRange(days) => d.(timeRange := days);
    var assetRerun := next.coin != d.coin || next.refreshTrigger != d.refreshTrigger;
    var chartRerun := next.coin != d.coin || next.timeRange != d.timeRange;
    RunEffects(next, assetRerun, chartRerun, now)
  }

  /** A response to the asset request; an unmounted tree drops state updates. */
  function DeliverAsset(d: DashboardState, e: FetchEvent, now: int): (r: DashboardState)
    ensures r.coin == d.coin && r.refreshTrigger == d.refreshTrigger && r.timeRange == d.timeRange
    ensures r.chart == d.chart
    ensures !Crashed(d) ==> r.asset.fetch == if d.coin == "" then d.asset.fetch else Apply(d.asset.fetch, e)
  {
    if Crashed(d) then d else d.(asset := EffectStep(d.coin, d.asset, e, now))
  }

  /** A response to the chart request; an unmounted tree drops state updates. */
  function DeliverChart(d: DashboardState, e: FetchEvent): (r: DashboardState)
    ensures r.coin == d.coin && r.refreshTrigger == d.refreshTrigger && r.timeRange == d.timeRange
    ensures r.asset == d.asset
    ensures !Crashed(d) && d.coin != "" && d.timeRange != 0 ==> r.chart == Apply(d.chart, e)
  {
    if Crashed(d) then d else d.(chart := ChartStep(d.coin, d.timeRange, d.chart, e))
  }

  /** The selections are always entries of the option tables. */
  predicate SelectionValid(d: DashboardState) {
    IsCoinId(d.coin) && IsRangeDays(d.timeRange)
  }

  /** Mounting starts from valid selections and enabled actions keep them valid. */
  lemma SelectionStaysValid(d: DashboardState, a: UserAction, e: FetchEvent, now: int)
    ensures SelectionValid(Mount(now).state)
    ensures SelectionValid(d) && Enabled(d, a) ==> SelectionValid(Dispatch(d, a, now).state)
    ensures SelectionValid(d) ==> SelectionValid(DeliverAsset(d, e, now)) && SelectionValid(DeliverChart(d, e))
  {
    DefaultsAreMembers();
  }

  /** Choosing another coin refetches both the details and the chart for that coin. */
  lemma CoinChangeRequests(d: DashboardState, id: string, now: int)
    requires id != d.coin && id != "" && d.timeRange != 0
    ensures Dispatch(d, SelectCoin(id), now).requests == multiset{AssetUrl(id), ChartUrl(id, d.timeRange)}
  {
  }

  /** Choosing another range refetches only the chart, with the new day count. */
  lemma RangeChangeRequests(d: DashboardState, days: nat, now: int)
    requires days != d.timeRange && days != 0 && d.coin != ""
    ensures Dispatch(d, SelectRange(days), now).requests == multiset{ChartUrl(d.coin, days)}
    ensures Dispatch(d, SelectRange(days), now).state.asset == d.asset
  {
  }

  /** A manual refresh increments the counter by one and refetches only the details. */
  lemma RefreshRequests(d: DashboardState, now: int)
    requires d.coin != ""
    ensures Dispatch(d, ManualRefresh, now).requests == multiset{AssetUrl(d.coin)}
    ensures Dispatch(d, ManualRefresh, now).state.chart == d.chart
  {
  }

  /** Re-selecting the current coin or range changes no dependency: no request, no state change. */
  lemma UnchangedSelectionIsQuiet(d: DashboardState, now: int)
    ensures Dispatch(d, SelectCoin(d.coin), now) == Outcome(d, multiset{})
    ensures Dispatch(d, SelectRange(d.timeRange), now) == Outcome(d, multiset{})
  {
  }

  /** An asset request goes out exactly when the coin or the counter changed. */
  lemma AssetRequestIffDependencyChanged(d: DashboardState, a: UserAction, now: int)
    requires d.coin != "" && (a.SelectCoin? ==> a.id != "")
    ensures var o := Dispatch(d, a, now);
            (AssetUrl(o.state.coin) in o.requests) <==> (o.state.coin != d.coin || o.state.refreshTrigger != d.refreshTrigger)
  {
    if a.SelectRange? {
      AssetUrlIsNotChartUrl(d.coin, a.days);
    }
  }

  /** A detail URL never equals the chart URL of the same coin. */
  lemma AssetUrlIsNotChartUrl(coinId: string, days: nat)
    ensures AssetUrl(coinId) != ChartUrl(coinId, days)
  {
    assert |AssetUrl(coinId)| < |ChartUrl(coinId, days)|;
  }

  /** While the error panel is up, no action is offered and no response lowers it: the page is stuck. */
  lemma ErrorPanelIsFinal(d: DashboardState, a: UserAction, e: FetchEvent, now: int)
    requires ShowsErrorPanel(d.asset)
    ensures !Enabled(d, a)
    ensures !e.Start? && e != Thrown("") ==> ShowsErrorPanel(DeliverAsset(d, e, now).asset)
    ensures ShowsErrorPanel(DeliverChart(d, e).asset)
  {
    if !e.Start? && e != Thrown("") {
      ErrorPanelSticky(d.coin, d.asset, e, now);
    }
  }

  /** A crashed page stays crashed: nothing is offered and responses change nothing. */
  lemma CrashIsFinal(d: DashboardState, a: UserAction, e: FetchEvent, now: int)
    requires Crashed(d)
    ensures !Enabled(d, a)
    ensures DeliverAsset(d, e, now) == d && DeliverChart(d, e) == d
  {
  }

  /** A detail response whose JSON body is `null` crashes the page. */
  lemma NullDetailPayloadCrashes(now: int, a: UserAction)
    ensures var d := DeliverAsset(Mount(now).state, RespondOk(Null), now);
            Crashed(d) && !Enabled(d, a)
  {
  }

  /** A detail payload whose `name` is an object crashes the page once it has loaded. */
  lemma ObjectNameCrashes(now: int, a: UserAction)
    ensures var d := DeliverAsset(Mount(now).state, RespondOk(Obj(map["name" := EmptyObject])), now);
            Crashed(d) && !Enabled(d, a)
  {
  }

  /** A string name renders: the same response with a string `name` leaves the page live. */
  lemma StringNameRenders(now: int, name: string)
    ensures var d := DeliverAsset(Mount(now).state, RespondOk(Obj(map["name" := Str(name)])), now);
            !Crashed(d) && Enabled(d, ManualRefresh)
  {
  }

  /** A chart response whose JSON body is `null` crashes the page too. */
  lemma NullChartPayloadCrashes(now: int, a: UserAction)
    ensures var d := DeliverChart(Mount(now).state, RespondOk(Null));
            Crashed(d) && !Enabled(d, a)
  {
  }

  /**
   * The fetch-failure test as it runs. React runs ChartSection's effect
   * before App's, so the chart request is the first and takes the mocked
   * rejection; its error is kept but never shown. The detail request then
   * gets no response object, and reading `response.ok` throws a
   * TypeError, whose non-empty message raises the panel.
   */
  lemma FetchFailureTest(now: int, typeErrorMessage: string)
    ensures var chartFailed := DeliverChart(Mount(now).state, Thrown("Network error"));
            && chartFailed.chart.error == Some("Network error")
            && !ShowsErrorPanel(chartFailed.asset)
            && var failed := DeliverAsset(chartFailed, Thrown(typeErrorMessage), now);
               (ShowsErrorPanel(failed.asset) <==> typeErrorMessage != "")
  {
  }
}

=== FILE: decimal.dfy ===
/**
 * Decimal rendering of non-negative integers, as a template literal
 * (`${n}`) renders an HTTP status or a day count, and its inverse.
 */
module Decimal {

  predicate IsDigit(c: char) {
    '0' <= c <= '9'
  }

  predicate AllDigits(s: string) {
    forall i :: 0 <= i < |s| ==> IsDigit(s[i])
  }

  function DigitChar(d: nat): (c: char)
    requires d < 10
    ensures IsDigit(c)
  {
    "0123456789"[d]
  }

  function DigitValue(c: char): (d: nat)
    requires IsDigit(c)
    ensures d < 10
  {
    (c as int) - ('0' as int)
  }

  lemma DigitRoundTrip(d: nat)
    requires d < 10
    ensures DigitValue(DigitChar(d)) == d
  {
  }

  /** Shortest decimal numeral: no leading zeros, "0" for zero. */
  function DecimalString(n: nat): (s: string)
    ensures |s| >= 1 && AllDigits(s)
    ensures s[0] == '0' ==> n == 0
    decreases n
  {
    if n < 10 then [DigitChar(n)] else DecimalString(n / 10) + [DigitChar(n % 10)]
  }

  /** Value of a string of decimal digits, most significant first. */
  function ParseDecimal(s: string): nat
    requires AllDigits(s)
    decreases |s|
  {
    if s == [] then 0 else 10 * ParseDecimal(s[..|s| - 1]) + DigitValue(s[|s| - 1])
  }

  /** Parsing a rendered numeral gives back the number. */
  lemma {:induction false} ParseDecimalString(n: nat)
    ensures ParseDecimal(DecimalString(n)) == n
    decreases n
  {
    var s := DecimalString(n);
    if n < 10 {
      DigitRoundTrip(n);
      assert s[..|s| - 1] == [];
    } else {
      ParseDecimalString(n / 10);
      DigitRoundTrip(n % 10);
      assert s[..|s| - 1] == DecimalString(n / 10);
    }
  }

  /** Distinct numbers render differently. */
  lemma DecimalStringInjective(m: nat, n: nat)
    requires DecimalString(m) == DecimalString(n)
    ensures m == n
  {
    ParseDecimalString(m);
    ParseDecimalString(n);
  }
}

=== FILE: derivation.dfy ===
/**
 * The dashboard's derived view: the flat record of thirteen display fields
 * that App computes from the last asset-detail payload, reading each field
 * along a fixed path and substituting 0 (or '' for the name) through `||`.
 */
module Derivation {
  import opened JsValues

  datatype CoinData = CoinData(
    name: JsValue,
    currentPrice: JsValue,
    marketCapChange24h: JsValue,
    allTimeHigh: JsValue,
    allTimeLow: JsValue,
    sentiment: JsValue,
    high24h: JsValue,
    low24h: JsValue,
    priceChange24h: JsValue,
    marketCap: JsValue,
    totalVolume: JsValue,
    circulatingSupply: JsValue,
    twitterFollowers: JsValue)

  datatype FieldName =
    | Name | CurrentPrice | MarketCapChange24h | AllTimeHigh | AllTimeLow | Sentiment
    | High24h | Low24h | PriceChange24h | MarketCap | TotalVolume | CirculatingSupply
    | TwitterFollowers

  function Field(c: CoinData, f: FieldName): JsValue {
    match f
    case Name => c.name
    case CurrentPrice => c.currentPrice
    case MarketCapChange24h => c.marketCapChange24h
    case AllTimeHigh => c.allTimeHigh
    case AllTimeLow => c.allTimeLow
    case Sentiment => c.sentiment
    case High24h => c.high24h
    case Low24h => c.low24h
    case PriceChange24h => c.priceChange24h
    case MarketCap => c.marketCap
    case TotalVolume => c.totalVolume
    case CirculatingSupply => c.circulatingSupply
    case TwitterFollowers => c.twitterFollowers
  }

  /** Where each field lives in the API's asset-detail document. */
  function Path(f: FieldName): seq<string> {
    match f
    case Name => ["name"]
    case CurrentPrice => ["market_data", "current_price", "usd"]
    case MarketCapChange24h => ["market_data", "market_cap_change_percentage_24h"]
    case AllTimeHigh => ["market_data", "ath", "usd"]
    case AllTimeLow => ["market_data", "atl", "usd"]
    case Sentiment => ["sentiment_votes_up_percentage"]
    case High24h => ["market_data", "high_24h", "usd"]
    case Low24h => ["market_data", "low_24h", "usd"]
    case PriceChange24h => ["market_data", "price_change_24h_in_currency", "usd"]
    case MarketCap => ["market_data", "market_cap", "usd"]
    case TotalVolume => ["market_data", "total_volume", "usd"]
    case CirculatingSupply => ["market_data", "circulating_supply"]
    case TwitterFollowers => ["community_data", "twitter_followers"]
  }

  /** The substitute for a missing field: '' for the name, 0 for the rest. */
  function Default(f: FieldName): JsValue {
    if f == Name then Str("") else Zero
  }

  /** The view of the initial, empty payload `{}`. */
  const EmptyCoinData: CoinData :=
    CoinData(Str(""), Zero, Zero, Zero, Zero, Zero, Zero, Zero, Zero, Zero, Zero, Zero, Zero)

  /** `parent.key` on a value known not to be null or undefined, which cannot throw. */
  function Read(parent: JsValue, key: string): JsValue
    requires !Nullish(parent)
  {
    Get(parent, key).value
  }

  /** `parent.key?.usd || 0`. */
  function UsdOrZero(parent: JsValue, key: string): JsValue
    requires !Nullish(parent)
  {
    Or(OptGet(Read(parent, key), "usd").value, Zero)
  }

  /** `parent.key || 0`. */
  function OrZero(parent: JsValue, key: string): JsValue
    requires !Nullish(parent)
  {
    Or(Read(parent, key), Zero)
  }

  /**
   * The `coinData` memo, in source order. Reading `data.market_data`
   * throws when the payload itself is null or undefined, and only then:
   * every later read is on the payload or on a sub-object defaulted by
   * `|| {}`, and the `usd` reads go through `?.`.
   */
  function Derive(data: JsValue): (r: Completion<CoinData>)
    ensures r.TypeError? <==> Nullish(data)
  {
    if Nullish(data) then TypeError
    else
      var marketData := Or(Read(data, "market_data"), EmptyObject);
      var communityData := Or(Read(data, "community_data"), EmptyObject);
      Normal(CoinData(
        name := Or(Read(data, "name"), Str("")),
        currentPrice := UsdOrZero(marketData, "current_price"),
        marketCapChange24h := OrZero(marketData, "market_cap_change_percentage_24h"),
        allTimeHigh := UsdOrZero(marketData, "ath"),
        allTimeLow := UsdOrZero(marketData, "atl"),
        sentiment := OrZero(data, "sentiment_votes_up_percentage"),
        high24h := UsdOrZero(marketData, "high_24h"),
        low24h := UsdOrZero(marketData, "low_24h"),
        priceChange24h := UsdOrZero(marketData, "price_change_24h_in_currency"),
        marketCap := UsdOrZero(marketData, "market_cap"),
        totalVolume := UsdOrZero(marketData, "total_volume"),
        circulatingSupply := OrZero(marketData, "circulating_supply"),
        twitterFollowers := OrZero(communityData, "twitter_followers")))
  }

  /** `x || {}` reads the same properties as `x`. */
  lemma DefaultedObjectProps(x: JsValue, key: string)
    ensures Prop(Or(x, EmptyObject), key) == Prop(x, key)
  {
  }

  /** A second-level read through a defaulted sub-object agrees with the path reading. */
  lemma SecondLevel(data: JsValue, outer: string, key: string)
    requires !Nullish(data)
    ensures Read(Or(Prop(data, outer), EmptyObject), key) == Lookup(data, [outer, key])
  {
    DefaultedObjectProps(Prop(data, outer), key);
    LookupCons(data, outer, [key]);
    LookupCons(Prop(data, outer), key, []);
  }

  /** A third-level `?.usd` read agrees with the path reading. */
  lemma ThirdLevel(data: JsValue, outer: string, key: string)
    requires !Nullish(data)
    ensures UsdOrZero(Or(Prop(data, outer), EmptyObject), key) == Or(Lookup(data, [outer, key, "usd"]), Zero)
  {
    var marketData := Or(Prop(data, outer), EmptyObject);
    SecondLevel(data, outer, key);
    var sub := Lookup(data, [outer, key]);
    assert Read(marketData, key) == sub;
    LookupCons(data, outer, [key, "usd"]);
    LookupCons(Prop(data, outer), key, ["usd"]);
    LookupCons(Prop(Prop(data, outer), key), "usd", []);
    assert [outer, key, "usd"][1..] == [key, "usd"];
    assert Lookup(data, [outer, key]) == Prop(Prop(data, outer), key);
    assert Lookup(data, [outer, key, "usd"]) == Prop(sub, "usd");
  }

  /** One field of the derived view is the path reading with its default. */
  lemma FieldReadsPath(data: JsValue, f: FieldName)
    requires !Nullish(data)
    ensures Derive(data).Normal?
    ensures Field(Derive(data).value, f) == Or(Lookup(data, Path(f)), Default(f))
  {
    match f
    case Name => LookupCons(data, "name", []);
    case CurrentPrice => ThirdLevel(data, "market_data", "current_price");
    case MarketCapChange24h => SecondLevel(data, "market_data", "market_cap_change_percentage_24h");
    case AllTimeHigh => ThirdLevel(data, "market_data", "ath");
    case AllTimeLow => ThirdLevel(data, "market_data", "atl");
    case Sentiment => LookupCons(data, "sentiment_votes_up_percentage", []);
    case High24h => ThirdLevel(data, "market_data", "high_24h");
    case Low24h => ThirdLevel(data, "market_data", "low_24h");
    case PriceChange24h => ThirdLevel(data, "market_data", "price_change_24h_in_currency");
    case MarketCap => ThirdLevel(data, "market_data", "market_cap");
    case TotalVolume => ThirdLevel(data, "market_data", "total_volume");
    case CirculatingSupply => SecondLevel(data, "market_data", "circulating_supply");
    case TwitterFollowers => SecondLevel(data, "community_data", "twitter_followers");
  }

  /**
   * Totality and field mapping: for every payload that is not null or
   * undefined, each derived field is the value found at its own path, or
   * its default when that value is falsy or missing.
   */
  lemma DeriveReadsPaths(data: JsValue)
    requires !Nullish(data)
    ensures Derive(data).Normal?
    ensures forall f :: Field(Derive(data).value, f) == Or(Lookup(data, Path(f)), Default(f))
  {
    forall f ensures Field(Derive(data).value, f) == Or(Lookup(data, Path(f)), Default(f)) {
      FieldReadsPath(data, f);
    }
  }

  /** No two fields share a path; in particular the all-time low is not read from `ath`. */
  lemma PathsDistinct(f: FieldName, g: FieldName)
    requires f != g
    ensures Path(f) != Path(g)
  {
  }

  /**
   * Every field of a derived view is defined: never undefined, null or
   * NaN, since those are falsy and get replaced by the default.
   */
  lemma DeriveTotal(data: JsValue, f: FieldName)
    requires !Nullish(data)
    ensures Derive(data).Normal?
    ensures var v := Field(Derive(data).value, f);
            !v.Undefined? && !v.Null? && v != Num(NaN)
  {
    DeriveReadsPaths(data);
  }

  /**
   * A field whose path holds a number (or nothing) derives to a number,
   * and a name that is a string (or nothing) derives to a string.
   */
  lemma DeriveKeepsTypes(data: JsValue, f: FieldName)
    requires !Nullish(data)
    requires f == Name ==> var v := Lookup(data, Path(f)); v.Str? || !Truthy(v)
    requires f != Name ==> var v := Lookup(data, Path(f)); v.Num? || !Truthy(v)
    ensures Derive(data).Normal?
    ensures f == Name ==> Field(Derive(data).value, f).Str?
    ensures f != Name ==> Field(Derive(data).value, f).Num?
  {
    DeriveReadsPaths(data);
  }

  /** The initial payload `{}` derives to '' and twelve zeros. */
  lemma DeriveEmptyPayload()
    ensures Derive(EmptyObject) == Normal(EmptyCoinData)
  {
    DeriveReadsPaths(EmptyObject);
    forall f: FieldName ensures Lookup(EmptyObject, Path(f)) == Undefined {
      if |Path(f)| > 1 {
        LookupNonObject(Undefined, Path(f)[1..]);
      }
      LookupCons(EmptyObject, Path(f)[0], Path(f)[1..]);
      assert [Path(f)[0]] + Path(f)[1..] == Path(f);
    }
    assert forall f :: Field(Derive(EmptyObject).value, f) == Field(EmptyCoinData, f);
  }

  /**
   * A present truthy value is copied unchanged, and a present 0, null,
   * NaN or empty string derives exactly as an absent one.
   */
  lemma DeriveFieldDependsOnlyOnItsPath(d1: JsValue, d2: JsValue, f: FieldName)
    requires !Nullish(d1) && !Nullish(d2)
    requires Truthy(Lookup(d1, Path(f))) ==> Lookup(d2, Path(f)) == Lookup(d1, Path(f))
    requires !Truthy(Lookup(d1, Path(f))) ==> !Truthy(Lookup(d2, Path(f)))
    ensures Field(Derive(d1).value, f) == Field(Derive(d2).value, f)
    ensures Truthy(Lookup(d1, Path(f))) ==> Field(Derive(d1).value, f) == Lookup(d1, Path(f))
    ensures !Truthy(Lookup(d1, Path(f))) ==> Field(Derive(d1).value, f) == Default(f)
  {
    DeriveReadsPaths(d1);
    DeriveReadsPaths(d2);
  }

  /** Two views that agree on every field are the same view. */
  lemma FieldsDetermineView(c1: CoinData, c2: CoinData)
    requires forall f :: Field(c1, f) == Field(c2, f)
    ensures c1 == c2
  {
    assert Field(c1, Name) == Field(c2, Name);
    assert Field(c1, CurrentPrice) == Field(c2, CurrentPrice);
    assert Field(c1, MarketCapChange24h) == Field(c2, MarketCapChange24h);
    assert Field(c1, AllTimeHigh) == Field(c2, AllTimeHigh);
    assert Field(c1, AllTimeLow) == Field(c2, AllTimeLow);
    assert Field(c1, Sentiment) == Field(c2, Sentiment);
    assert Field(c1, High24h) == Field(c2, High24h);
    assert Field(c1, Low24h) == Field(c2, Low24h);
    assert Field(c1, PriceChange24h) == Field(c2, PriceChange24h);
    assert Field(c1, MarketCap) == Field(c2, MarketCap);
    assert Field(c1, TotalVolume) == Field(c2, TotalVolume);
    assert Field(c1, CirculatingSupply) == Field(c2, CirculatingSupply);
    assert Field(c1, TwitterFollowers) == Field(c2, TwitterFollowers);
  }

  function Usd(x: real): JsValue {
    Obj(map["usd" := Num(Finite(x))])
  }

  /** The `market_data` of the Ethereum payload written in the selector test. */
  const EthereumMarketData: JsValue := Obj(map[
    "current_price" := Usd(2000.0),
    "market_cap_change_percentage_24h" := Num(Finite(5.5)),
    "ath" := Usd(4800.0),
    "atl" := Usd(0.42),
    "high_24h" := Usd(2100.0),
    "low_24h" := Usd(1900.0)])

  /** The whole Ethereum payload written in the selector test. */
  const EthereumPayload: JsValue := Obj(map[
    "name" := Str("Ethereum"),
    "market_data" := EthereumMarketData,
    "sentiment_votes_up_percentage" := Num(Finite(75.0)),
    "community_data" := Obj(map["twitter_followers" := Num(Finite(100000.0))])])

  /** Every field the payload carries, and 0 for the four it leaves out. */
  const EthereumView: CoinData := CoinData(
    name := Str("Ethereum"),
    currentPrice := Num(Finite(2000.0)),
    marketCapChange24h := Num(Finite(5.5)),
    allTimeHigh := Num(Finite(4800.0)),
    allTimeLow := Num(Finite(0.42)),
    sentiment := Num(Finite(75.0)),
    high24h := Num(Finite(2100.0)),
    low24h := Num(Finite(1900.0)),
    priceChange24h := Zero,
    marketCap := Zero,
    totalVolume := Zero,
    circulatingSupply := Zero,
    twitterFollowers := Num(Finite(100000.0)))

  /** Paths of length one to three unfold into nested property reads. */
  lemma LookupShort(v: JsValue, p: seq<string>)
    requires 1 <= |p| <= 3
    ensures |p| == 1 ==> Lookup(v, p) == Prop(v, p[0])
    ensures |p| == 2 ==> Lookup(v, p) == Prop(Prop(v, p[0]), p[1])
    ensures |p| == 3 ==> Lookup(v, p) == Prop(Prop(Prop(v, p[0]), p[1]), p[2])
  {
    LookupCons(v, p[0], p[1..]);
    assert [p[0]] + p[1..] == p;
    if |p| >= 2 {
      LookupCons(Prop(v, p[0]), p[1], p[2..]);
      assert [p[1]] + p[2..] == p[1..];
    }
    if |p| == 3 {
      LookupCons(Prop(Prop(v, p[0]), p[1]), p[2], []);
      assert [p[2]] + [] == p[2..];
    }
  }

  lemma EthereumTopLevel()
    ensures Prop(EthereumPayload, "name") == Str("Ethereum")
    ensures Prop(EthereumPayload, "market_data") == EthereumMarketData
    ensures Prop(EthereumPayload, "sentiment_votes_up_percentage") == Num(Finite(75.0))
    ensures Prop(Prop(EthereumPayload, "community_data"), "twitter_followers") == Num(Finite(100000.0))
  {
  }

  lemma EthereumMarketReads()
    ensures Prop(EthereumMarketData, "current_price") == Usd(2000.0)
    ensures Prop(EthereumMarketData, "market_cap_change_percentage_24h") == Num(Finite(5.5))
    ensures Prop(EthereumMarketData, "ath") == Usd(4800.0)
    ensures Prop(EthereumMarketData, "atl") == Usd(0.42)
    ensures Prop(EthereumMarketData, "high_24h") == Usd(2100.0)
    ensures Prop(EthereumMarketData, "low_24h") == Usd(1900.0)
  {
  }

  lemma EthereumMarketMissing()
    ensures Prop(EthereumMarketData, "price_change_24h_in_currency") == Undefined
    ensures Prop(EthereumMarketData, "market_cap") == Undefined
    ensures Prop(EthereumMarketData, "total_volume") == Undefined
    ensures Prop(EthereumMarketData, "circulating_supply") == Undefined
  {
  }

  /** A payload with the test's readings has the test's view at every path. */
  lemma PathsOfEthereumReadings(data: JsValue, f: FieldName)
    requires Prop(data, "name") == Str("Ethereum")
    requires Prop(data, "sentiment_votes_up_percentage") == Num(Finite(75.0))
    requires Prop(Prop(data, "community_data"), "twitter_followers") == Num(Finite(100000.0))
    requires Prop(data, "market_data") == EthereumMarketData
    ensures Or(Lookup(data, Path(f)), Default(f)) == Field(EthereumView, f)
  {
    LookupShort(data, Path(f));
    if f in {CurrentPrice, MarketCapChange24h, AllTimeHigh, AllTimeLow, High24h, Low24h} {
      EthereumMarketReads();
    } else if f in {PriceChange24h, MarketCap, TotalVolume, CirculatingSupply} {
      EthereumMarketMissing();
    }
  }

  /** What the Ethereum payload holds at each field's path. */
  lemma EthereumPaths(f: FieldName)
    ensures Or(Lookup(EthereumPayload, Path(f)), Default(f)) == Field(EthereumView, f)
  {
    EthereumTopLevel();
    PathsOfEthereumReadings(EthereumPayload, f);
  }

  /** Any payload is determined, as far as the view goes, by its path readings. */
  lemma DeriveFromPaths(data: JsValue, view: CoinData)
    requires !Nullish(data)
    requires forall f :: Or(Lookup(data, Path(f)), Default(f)) == Field(view, f)
    ensures Derive(data) == Normal(view)
  {
    DeriveReadsPaths(data);
    FieldsDetermineView(Derive(data).value, view);
  }

  /**
   * The Ethereum payload of the selector test: every field it carries is
   * copied, the all-time low comes from `atl`, and the four fields it
   * leaves out default to 0.
   */
  lemma DeriveEthereumExample()
    ensures Derive(EthereumPayload) == Normal(EthereumView)
  {
    forall f ensures Or(Lookup(EthereumPayload, Path(f)), Default(f)) == Field(EthereumView, f) {
      EthereumPaths(f);
    }
    DeriveFromPaths(EthereumPayload, EthereumView);
  }
}

=== FILE: fetch.dfy ===
/**
 * The fetch-state machine both data hooks share: `setLoading(true)` and
 * `setError(null)` before the request, then the payload on an ok
 * response, or an error message on a non-ok status or a thrown error,
 * and `setLoading(false)` in the `finally`. Network responses are events.
 */
module Fetch {
  import opened JsValues
  import opened Decimal

  /**
   * What drives a fetch cycle: the request starting, an ok response, a
   * non-ok status, or an Error thrown anywhere inside the `try` (a network
   * failure, a failed `response.json()`, a TypeError on the response).
   */
  datatype FetchEvent =
    | Start
    | RespondOk(payload: JsValue)
    | RespondNotOk(status: nat)
    | Thrown(message: string)

  const HttpErrorPrefix: string := "HTTP error! status: "

  /** The message of the Error thrown for a non-ok response. */
  function HttpErrorMessage(status: nat): (m: string)
    ensures |m| > |HttpErrorPrefix| && m[..|HttpErrorPrefix|] == HttpErrorPrefix
    ensures m[|HttpErrorPrefix|..] == DecimalString(status)
  {
    HttpErrorPrefix + DecimalString(status)
  }

  /** The status can be read back from the message, so distinct statuses give distinct messages. */
  lemma HttpErrorMessageCarriesStatus(status: nat)
    ensures |HttpErrorMessage(status)| > |HttpErrorPrefix|
    ensures HttpErrorMessage(status)[..|HttpErrorPrefix|] == HttpErrorPrefix
    ensures var digits := HttpErrorMessage(status)[|HttpErrorPrefix|..];
            AllDigits(digits) && ParseDecimal(digits) == status
  {
    var m := HttpErrorMessage(status);
    assert m[|HttpErrorPrefix|..] == DecimalString(status);
    ParseDecimalString(status);
  }

  lemma HttpErrorMessage404()
    ensures HttpErrorMessage(404) == "HTTP error! status: 404"
  {
    assert DecimalString(404) == DecimalString(40) + ['4'];
    assert DecimalString(40) == DecimalString(4) + ['0'];
  }

  /** The three state variables of a fetch hook; `data` is whatever JSON was last received. */
  datatype FetchState = FetchState(data: JsValue, loading: bool, error: Option<string>)

  function Apply(s: FetchState, e: FetchEvent): (t: FetchState)
    ensures e.Start? ==> t == s.(loading := true, error := None)
    ensures !e.Start? ==> !t.loading
    ensures e.RespondOk? ==> t.data == e.payload && t.error == s.error
    ensures e.RespondNotOk? ==> t.data == s.data && t.error == Some(HttpErrorMessage(e.status))
    ensures e.Thrown? ==> t.data == s.data && t.error == Some(e.message)
  {
    match e
    case Start => s.(loading := true, error := None)
    case RespondOk(payload) => s.(data := payload, loading := false)
    case RespondNotOk(status) => s.(error := Some(HttpErrorMessage(status)), loading := false)
    case Thrown(message) => s.(error := Some(message), loading := false)
  }

  /** A sequential stream of events, applied in arrival order. */
  function Run(s: FetchState, events: seq<FetchEvent>): FetchState
    decreases |events|
  {
    if events == [] then s else Apply(Run(s, events[..|events| - 1]), events[|events| - 1])
  }

  /** Reference: the payload of the last ok response, or the initial data if there was none. */
  function LastPayload(events: seq<FetchEvent>, initial: JsValue): JsValue
    decreases |events|
  {
    if events == [] then initial
    else if events[|events| - 1].RespondOk? then events[|events| - 1].payload
    else LastPayload(events[..|events| - 1], initial)
  }

  /** The error an event leaves behind, if it touches the error at all. */
  function ErrorOf(e: FetchEvent): Option<string>
    requires !e.RespondOk?
  {
    match e
    case Start => None
    case RespondNotOk(status) => Some(HttpErrorMessage(status))
    case Thrown(message) => Some(message)
  }

  /**
   * Reference: the error is decided by the last event that is not an ok
   * response; a success leaves the previous error in place.
   */
  function LastError(events: seq<FetchEvent>, initial: Option<string>): Option<string>
    decreases |events|
  {
    if events == [] then initial
    else if !events[|events| - 1].RespondOk? then ErrorOf(events[|events| - 1])
    else LastError(events[..|events| - 1], initial)
  }

  /**
   * A run is characterised by its history: data is the last ok payload,
   * loading holds exactly when the last event was Start, and the error is
   * the one left by the last non-ok event.
   */
  lemma {:induction false} RunFromHistory(s: FetchState, events: seq<FetchEvent>)
    ensures Run(s, events).data == LastPayload(events, s.data)
    ensures Run(s, events).loading == if events == [] then s.loading else events[|events| - 1].Start?
    ensures Run(s, events).error == LastError(events, s.error)
    decreases |events|
  {
    if events != [] {
      RunFromHistory(s, events[..|events| - 1]);
    }
  }

  /** Responses never clear an error: once set, only a new Start removes it. */
  lemma {:induction false} ErrorClearedOnlyByStart(s: FetchState, events: seq<FetchEvent>)
    requires s.error.Some?
    requires forall i :: 0 <= i < |events| ==> !events[i].Start?
    ensures Run(s, events).error.Some?
    decreases |events|
  {
    if events != [] {
      ErrorClearedOnlyByStart(s, events[..|events| - 1]);
    }
  }

  /** A failure followed by a new request that succeeds ends in the success state. */
  lemma RecoveryAfterFailure(s: FetchState, status: nat, payload: JsValue)
    ensures var t := Run(s, [Start, RespondNotOk(status), Start, RespondOk(payload)]);
            t.data == payload && !t.loading && t.error == None
  {
    var evs := [Start, RespondNotOk(status), Start, RespondOk(payload)];
    assert evs[..3][..2][..1][..0] == [];
  }
}

=== FILE: formatters.dfy ===
/**
 * The display helpers of the utilities file: zero guards, fraction-digit
 * choice, number validity, percentage change and clamping. Locale
 * formatting (`Intl.NumberFormat`, `toLocaleString`, `toFixed`) stays
 * symbolic: a formatter returns a `Rendering` describing the call, and
 * `Render` applies an uninterpreted `Locale`.
 */
module Formatters {
  import opened JsValues

  /**
   * An argument as the helpers are documented to take it: a number, or
   * the `null`/`undefined` a missing field produces.
   */
  type NumericArg = v: JsValue | v.Undefined? || v.Null? || v.Num? witness Undefined

  /** `Number(v)` on a numeric argument. */
  function ToNumber(v: NumericArg): Number {
    match v
    case Undefined => NaN
    case Null => Finite(0.0)
    case Num(n) => n
  }

  /** Global `isNaN`, which coerces its argument first. */
  predicate IsNaN(v: NumericArg) {
    ToNumber(v).NaN?
  }

  /** Global `isFinite`, which coerces its argument first. */
  predicate IsFinite(v: NumericArg) {
    ToNumber(v).Finite?
  }

  /** `n < k` on a Number: NaN compares false, -Infinity is below everything. */
  predicate LessThan(n: Number, k: real) {
    match n
    case Finite(x) => x < k
    case NaN => false
    case Infinity(negative) => negative
  }

  /**
   * isValidNumber: accepts exactly the finite numbers. The `!== null`
   * test is the one that rejects null, which coerces to the finite 0.
   */
  function IsValidNumber(v: NumericArg): (r: bool)
    ensures r <==> v.Num? && v.n.Finite?
  {
    !IsNaN(v) && IsFinite(v) && v != Null && v != Undefined
  }

  /** Null passes both coercing tests, so the explicit null check is needed. */
  lemma NullPassesCoercingTests()
    ensures !IsNaN(Null) && IsFinite(Null) && !IsValidNumber(Null)
  {
  }

  /**
   * calculatePercentageChange: 0 unless both arguments are valid and the
   * old value is non-zero; otherwise the relative change in percent.
   */
  function PercentageChange(oldValue: NumericArg, newValue: NumericArg): (r: Number)
    ensures r.Finite?
    ensures (!IsValidNumber(oldValue) || !IsValidNumber(newValue) || oldValue == Zero) ==> r == Finite(0.0)
  {
    if !IsValidNumber(oldValue) || !IsValidNumber(newValue) || oldValue == Zero then
      Finite(0.0)
    else
      var o := oldValue.n.value;
      var n := newValue.n.value;
      Finite(((n - o) / o) * 100.0)
  }

  /** No change gives 0 for every finite value, zero included. */
  lemma PercentageChangeOfSelf(x: real)
    ensures PercentageChange(Num(Finite(x)), Num(Finite(x))) == Finite(0.0)
  {
  }

  /**
   * The percentage is the one that, applied to the old value, gives the
   * new value back.
   */
  lemma PercentageChangeApplies(o: real, n: real)
    requires o != 0.0
    ensures var p := PercentageChange(Num(Finite(o)), Num(Finite(n))).value;
            o + o * p / 100.0 == n
  {
    var p := PercentageChange(Num(Finite(o)), Num(Finite(n))).value;
    assert p == ((n - o) / o) * 100.0;
    calc {
      o + o * p / 100.0;
      o + o * (((n - o) / o) * 100.0) / 100.0;
      o + o * ((n - o) / o);
      { assert o * ((n - o) / o) == n - o; }
      n;
    }
  }

  function Max(a: real, b: real): real {
    if a >= b then a else b
  }

  function Min(a: real, b: real): real {
    if a <= b then a else b
  }

  /** clamp: `Math.min(Math.max(value, min), max)`. */
  function Clamp(value: real, lo: real, hi: real): (r: real)
    ensures lo <= hi ==> lo <= r <= hi
    ensures r <= hi
    ensures value >= hi ==> r == hi
    ensures value <= lo <= hi ==> r == lo
  {
    Min(Max(value, lo), hi)
  }

  /** Values already within the bounds are left alone. */
  lemma ClampIdentity(value: real, lo: real, hi: real)
    requires lo <= value <= hi
    ensures Clamp(value, lo, hi) == value
  {
  }

  /** Clamping twice is clamping once. */
  lemma ClampIdempotent(value: real, lo: real, hi: real)
    ensures Clamp(Clamp(value, lo, hi), lo, hi) == Clamp(value, lo, hi)
  {
  }

  /** With crossed bounds the upper bound wins, since `min` is applied last. */
  lemma ClampCrossedBounds(value: real, lo: real, hi: real)
    requires lo > hi
    ensures Clamp(value, lo, hi) == hi
  {
  }

  datatype Style = DecimalStyle | CurrencyStyle(currency: string)

  /** The options object handed to `toLocaleString` / `Intl.NumberFormat`. */
  datatype NumberFormat = NumberFormat(style: Style, minimumFractionDigits: nat, maximumFractionDigits: nat)

  /** What a formatter produces: a literal, or a locale-dependent call left symbolic. */
  datatype Rendering =
    | Literal(text: string)
    | Localized(value: Number, format: NumberFormat)
    | Fixed(value: Number, digits: nat, suffix: string)

  /** The locale-dependent primitives, uninterpreted. */
  datatype Locale = Locale(format: (Number, NumberFormat) -> string, toFixed: (Number, nat) -> string)

  function Render(r: Rendering, locale: Locale): string {
    match r
    case Literal(text) => text
    case Localized(value, format) => locale.format(value, format)
    case Fixed(value, digits, suffix) => locale.toFixed(value, digits) + suffix
  }

  /** formatNumber: "0" for a falsy argument, else a fixed-decimals locale rendering. */
  function FormatNumber(num: NumericArg, decimals: nat := 2): (r: Rendering)
    ensures r == Literal("0") <==> !Truthy(num)
    ensures Truthy(num) ==>
      r.Localized? && r.value == ToNumber(num) && r.format == NumberFormat(DecimalStyle, decimals, decimals)
  {
    if !Truthy(num) || num == Zero then Literal("0")
    else Localized(ToNumber(num), NumberFormat(DecimalStyle, decimals, decimals))
  }

  /** Fraction digits formatCurrency asks for: four below 1 (negatives too), else two. */
  function CurrencyDigits(value: Number): (d: nat)
    ensures d == 4 || d == 2
    ensures d == 4 <==> LessThan(value, 1.0)
  {
    if LessThan(value, 1.0) then 4 else 2
  }

  /**
   * formatCurrency: "$0" for a falsy argument (whatever the currency),
   * else a currency rendering with equal minimum and maximum digits.
   */
  function FormatCurrency(value: NumericArg, currency: string := "USD"): (r: Rendering)
    ensures r == Literal("$0") <==> !Truthy(value)
    ensures Truthy(value) ==>
      && r.Localized?
      && r.value == ToNumber(value)
      && r.format.style == CurrencyStyle(currency)
      && r.format.minimumFractionDigits == r.format.maximumFractionDigits
  {
    if !Truthy(value) || value == Zero then Literal("$0")
    else
      var digits := CurrencyDigits(ToNumber(value));
      Localized(ToNumber(value), NumberFormat(CurrencyStyle(currency), digits, digits))
  }

  /** Negative amounts also get four fraction digits. */
  lemma CurrencyDigitsOfValue(x: real)
    requires x != 0.0
    ensures var r := FormatCurrency(Num(Finite(x)));
            r.Localized? && r.format.maximumFractionDigits == (if x < 1.0 then 4 else 2)
  {
  }

  /** formatPercentage: "0" for a falsy argument, else two fixed decimals and a percent sign. */
  function FormatPercentage(num: NumericArg): (r: Rendering)
    ensures r == Literal("0") <==> !Truthy(num)
    ensures Truthy(num) ==> r == Fixed(ToNumber(num), 2, "%")
  {
    if !Truthy(num) || num == Zero then Literal("0")
    else Fixed(ToNumber(num), 2, "%")
  }

  predicate EndsWith(s: string, c: char) {
    |s| > 0 && s[|s| - 1] == c
  }

  /** Whatever the locale, only a non-zero percentage ends in '%'. */
  lemma PercentSignOnlyWhenNonZero(num: NumericArg, locale: Locale)
    ensures EndsWith(Render(FormatPercentage(num), locale), '%') <==> Truthy(num)
  {
    if Truthy(num) {
      var t := locale.toFixed(ToNumber(num), 2);
      assert Render(FormatPercentage(num), locale) == t + "%";
      assert (t + "%")[|t + "%"| - 1] == '%';
    }
  }

  /** The three zero guards agree: a falsy argument renders as "0", "$0", "0". */
  lemma ZeroGuards(v: NumericArg, locale: Locale)
    requires !Truthy(v)
    ensures Render(FormatNumber(v), locale) == "0"
    ensures Render(FormatCurrency(v), locale) == "$0"
    ensures Render(FormatPercentage(v), locale) == "0"
  {
  }
}

=== FILE: js_values.dfy ===
/**
 * The slice of JavaScript's value semantics the dashboard relies on:
 * values as they come out of `response.json()`, truthiness, the `||`
 * operator, property access `v.key` and optional chaining `v?.key`.
 */
module JsValues {

  /** Conventional optional value, standing in for `null` in React state. */
  datatype Option<+T> = None | Some(value: T)

  /**
   * The outcome of evaluating an expression that may throw: property
   * access on `null` or `undefined` raises a TypeError.
   */
  datatype Completion<+T> = Normal(value: T) | TypeError {

    predicate IsFailure() {
      TypeError?
    }

    function PropagateFailure<U>(): Completion<U>
      requires TypeError?
    {
      TypeError
    }

    function Extract(): T
      requires Normal?
    {
      value
    }
  }

  /**
   * An IEEE double, with finite values taken as exact reals (rounding is
   * not modelled). There is a single zero: `-0 === 0` in JavaScript.
   */
  datatype Number = Finite(value: real) | NaN | Infinity(negative: bool)

  /** A JavaScript value as produced by JSON parsing, plus `undefined` and NaN/Infinity. */
  datatype JsValue =
    | Undefined
    | Null
    | Bool(b: bool)
    | Num(n: Number)
    | Str(s: string)
    | Arr(items: seq<JsValue>)
    | Obj(props: map<string, JsValue>)

  const EmptyObject: JsValue := Obj(map[])

  const Zero: JsValue := Num(Finite(0.0))

  predicate Nullish(v: JsValue) {
    v.Undefined? || v.Null?
  }

  /** ToBoolean: the falsy values are undefined, null, false, 0, NaN and "". */
  predicate Truthy(v: JsValue) {
    match v
    case Undefined => false
    case Null => false
    case Bool(b) => b
    case Num(n) => !(n.NaN? || n == Finite(0.0))
    case Str(s) => s != ""
    case Arr(_) => true
    case Obj(_) => true
  }

  /** `v || d`: the left operand when it is truthy, otherwise the right one. */
  function Or(v: JsValue, d: JsValue): JsValue {
    if Truthy(v) then v else d
  }

  /**
   * An own property of an object, `undefined` for every other value.
   * Index and `length` properties of strings and arrays are not modelled:
   * the dashboard only reads named keys.
   */
  function Prop(v: JsValue, key: string): JsValue {
    if v.Obj? && key in v.props then v.props[key] else Undefined
  }

  /** `v.key`: throws on null and undefined. */
  function Get(v: JsValue, key: string): (r: Completion<JsValue>)
    ensures r.TypeError? <==> Nullish(v)
  {
    if Nullish(v) then TypeError else Normal(Prop(v, key))
  }

  /** `v?.key`: short-circuits to undefined on null and undefined, so it never throws. */
  function OptGet(v: JsValue, key: string): (r: Completion<JsValue>)
    ensures r == Normal(Prop(v, key))
  {
    if Nullish(v) then Normal(Undefined) else Get(v, key)
  }

  /**
   * Reference reading of a dotted path: follow the keys through nested
   * objects; any missing segment, or a segment that is not an object,
   * yields `undefined`.
   */
  function Lookup(v: JsValue, path: seq<string>): JsValue
    decreases |path|
  {
    if path == [] then v else Lookup(Prop(v, path[0]), path[1..])
  }

  /** A value that is not an object has no properties at any path. */
  lemma {:induction false} LookupNonObject(v: JsValue, path: seq<string>)
    requires !v.Obj? && path != []
    ensures Lookup(v, path) == Undefined
    decreases |path|
  {
    assert Prop(v, path[0]) == Undefined;
    if |path| > 1 {
      LookupNonObject(Undefined, path[1..]);
    }
  }

  /** Reading `k` then the rest of the path is reading the longer path. */
  lemma LookupCons(v: JsValue, k: string, rest: seq<string>)
    ensures Lookup(v, [k] + rest) == Lookup(Prop(v, k), rest)
  {
    assert ([k] + rest)[1..] == rest;
  }
}
